=== FILE: README.md ===
# deep-merge, modelled in Dafny

This project models the merge engine of `@gulujs/deep-merge` in Dafny. `deepMerge(target, source, options)` builds a new value from two JavaScript values:

- Arrays are concatenated.
- Plain objects are merged key by key. Each source key is laid over a clone of the target.
- A source key recurses only when the target already has that key and the source value is itself mergeable.
- Anything else in the source (primitives, `null`, `undefined`, Dates, RegExps) replaces the target value as it is.
- A `customMerge(path)` hook can take over any subtree below the root.
- A guard refuses keys that are reachable on the target but are not its own enumerable properties. This protects against prototype pollution.

## Modules

- `Wrappers`: `Option`.
- `Values`: JavaScript values as a tree.
  - `Obj(own, hidden)` lists the own enumerable properties in insertion order.
  - `hidden` holds the keys that `key in obj` also sees: inherited keys and own non-enumerable ones.
  - A freshly built `{}` hides the keys of `Object.prototype`.
  - `obj[k] = v` is `SetKey`. It replaces an existing own entry in place, or appends a new one.
  - Keys are strings or symbols. Property enumeration and assignment are also defined here.
- `Engine`: the engine.
  - The classifier `IsMergeableObject`.
  - The option defaults of the constructor, `FromOptions`.
  - `GetKeys`, `GetEnumerableOwnPropertySymbols`, `PropertyIsOnObject`, `PropertyIsUnsafe`.
  - `DeepClone`, `CloneUnlessOtherwiseSpecified`.
  - `ArrayMerge`, and `ObjectMerge` (its key loop is `Overlay`/`Entry`).
  - `Merge`, `MergeUnlessCustomSpecified`, `DeepMerge`.
  - The recursive functions terminate on the source value: every recursive merge receives `source[key]` for an own key of the source; array elements are only cloned, never merged.
- `CloneFacts`: what `deepClone` builds, that it keeps the object invariant, and that cloning twice is cloning once.
- `MergeFacts`: dispatch, the two default strategies, the unsafe-key guard and the custom-merge hook.
- `MergeInvariants`: properties of a whole merge, proved by induction over the source:
  - The object invariant (no repeated own key) is preserved.
  - The result depends on the hook only at paths strictly below the starting path. It follows that the root is never custom-merged, and that a hook which never returns a function is the same as no hook.
- `Heap`: `deepClone` over a store of identity-bearing arrays and objects, with the ancestor stack of identities.
  - A reference already on the stack clones to `undefined`.
  - Siblings get separate copies of the stack, so a shared but acyclic container is copied in full at every occurrence.
  - On an acyclic store the result agrees with the tree-valued `DeepClone` of the unfolded tree.
- `Examples`: cases of the repository's test suite, as lemmas about concrete values.

## Model

| member | source | states |
|---|---|---|
| Engine.GetEnumerableOwnPropertySymbols | index.js:140-143 | exactly the own enumerable symbol keys of an object, none for a non-object; on an object without repeated keys, no symbol is listed twice |
| Engine.GetKeys | index.js:126-133 | a key is enumerated iff it is an own enumerable key and is a string or symbols are included; every string key comes before every symbol key; on an object without repeated keys, no key is enumerated twice |
| Engine.EnumerationInInsertionOrder | index.js:126-143 | on an object without repeated keys, both enumerations list the keys of each kind in the order they were inserted |
| Engine.ArrayMerge | index.js:16-24 | the result is an array, as long as the two together, holding the (optionally cloned) target elements in order, then the (optionally cloned) source elements in order |
| Values.SetProp | index.js:43-45 | assignment keeps every existing key at its position, changes only the entry for the assigned key, and appends it when it is new |
| Values.ReadSetKey | index.js:43-45 | after `obj[k] = x`, reading `k` gives `x` and every other key reads as before |
| Values.EnumerableKeys | index.js:126-133 | enumeration lists every own enumerable key (symbols only when asked), strings before symbols, without repeats when the object has none |
| Values.EnumerableKeysOrdered | index.js:126-133 | on an object without repeated keys, enumeration keeps the keys of each kind in insertion order |
| Values.OfKindMembers | index.js:140-143 | filtering the own keys by kind keeps exactly the keys of that kind |
| Values.OfKindDistinct | index.js:126-133 | filtering a key list without repeats by kind gives a list without repeats |
| Values.OfKindOrder | index.js:126-133 | filtering a key list without repeats by kind keeps the kept keys in the order they were inserted |
| CloneFacts.StringKeyedEnumeration | index.js:126-133 | an object with only string keys is enumerated in insertion order, whatever `includeSymbol` is |
| MergeFacts.ReplacedTargetIgnored | index.js:62-80 | when the source cannot be combined with a target (an array onto a non-array, a mergeable source onto an array or a non-mergeable value, or any non-mergeable source), the target is not consulted: two such targets give the same result, which is the source's clone (when cloning is on) for an array or mergeable source and the source itself otherwise |
| MergeFacts.VerbatimSourceIgnoresClone | index.js:71-79 | a source that is neither an array nor mergeable is returned as it is, onto any target and with cloning on or off |
| MergeFacts.OpaqueSourceWins | index.js:3-7 | with the default classifier, a primitive, `null`, `undefined`, Date or RegExp source is returned uncloned, even when cloning is on |
| MergeFacts.ArrayMergeConcatenates | index.js:16-24 | without cloning the array strategy is exactly `target ++ source`, so the result holds the same multiset of elements |
| MergeFacts.ArrayMergeClones | index.js:16-24 | with cloning the array strategy equals the deep clone of `target ++ source` |
| MergeFacts.OverlayRead | index.js:37-47 | after the key loop, a safe key of the loop reads as the value assigned for it in the loop body; every other key, skipped or never enumerated, reads as in `dest` |
| MergeFacts.ObjectMergeRead | index.js:33-50 | the object strategy's result at every key: the recursive merge at `path ++ [key]` exactly when the key is safe, on the target and its source value is mergeable; the source value's clone for the other safe source keys; the cloned target's value for every other key |
| MergeFacts.ObjectMergeKeepsTarget | index.js:34-40 | a target key the source does not enumerate, or an unsafe one, keeps the (cloned) target value |
| MergeFacts.NewSourceKeyCopied | index.js:42-46 | a key the target does not have is never unsafe, and it receives the clone of the source value |
| MergeFacts.OverlayKeys | index.js:37-47 | the key loop keeps every key of `dest` at its position and adds exactly the safe enumerated keys, the new ones appended in enumeration order |
| MergeFacts.ObjectMergeKeys | index.js:33-50 | the result's keys are the cloned target's keys at their positions followed by the safe source keys the target lacks, in the source's enumeration order |
| MergeFacts.NewKeysMembers | index.js:37-47 | the keys the loop appends are exactly the safe enumerated keys not already present |
| MergeFacts.NewKeysDistinct | index.js:37-47 | the loop appends no key twice and none already present |
| MergeFacts.OverlayKeyOrder | index.js:37-47 | after the key loop, the keys are those of `dest` followed by the new safe keys in enumeration order |
| MergeFacts.UnsafeKeyNeverAssigned | index.js:38-40 | a key reachable on the target but not own and enumerable never becomes an own property of the result |
| MergeFacts.MergeEmptySource | index.js:33-50 | merging in an empty object gives the (optionally cloned) target |
| MergeFacts.OverlayOntoEmpty | index.js:37-47 | with cloning on and a target without own properties that hides none of the source keys, overlaying those keys onto an empty clone builds the same properties as the cloning loop does |
| MergeFacts.MergeIntoEmptyTarget | index.js:62-80 | with cloning on, merging into a target without own properties gives exactly the deep clone of the source, provided no source key is hidden on the target; without that proviso it fails, since a key such as `constructor`, `toString` or `valueOf` is inherited by a plain `{}` and so is skipped as unsafe |
| CloneFacts.ClonePropsKeysWithin | index.js:102-107 | the cloning loop adds no key outside the enumerated ones |
| MergeFacts.CustomMergeTakesOver | index.js:113-124 | when two configurations get the same function from the hook for a path, merging there gives the same result whatever their classifiers, cloning and symbol flags and answers for other paths: the function alone decides the subtree |
| MergeFacts.HookedKeyMerged | index.js:42-43 | when the hook supplies a function for `path ++ [key]`, a key the object strategy merges recursively gets that function applied to the target's value, the source's value and `path ++ [key]`, in that order |
| MergeFacts.DefaultsMayBeSpelledOut | index.js:53-60 | leaving out `clone`, `includeSymbol` or `isMergeableObject` merges exactly as passing `true`, `true` or `isMergeableObject`, and passing all three defaults merges as passing no options |
| CloneFacts.ClonePropsRead | index.js:102-107 | after the cloning loop, every enumerated key reads as the clone of the original value and every other key is untouched |
| CloneFacts.ClonePropsKeys | index.js:102-107 | distinct fresh keys are appended in enumeration order |
| CloneFacts.DeepCloneShape | index.js:86-111 | arrays are cloned element by element; a mergeable value becomes a fresh plain object holding clones of exactly its enumerated keys; any other value is returned as it is |
| CloneFacts.ClonePropsWellFormed | index.js:102-107 | the cloning loop never repeats a key, and every value it stores is well formed |
| CloneFacts.DeepCloneWellFormed | index.js:86-111 | the clone of a value without repeated keys has none either |
| CloneFacts.EnumerableKeysOfEnumeration | index.js:126-133 | an object whose properties are laid out in enumeration order enumerates in that same order |
| CloneFacts.ClonePropsFixpoint | index.js:102-107 | rebuilding an object whose values are already their own clones gives back the same properties |
| CloneFacts.DeepCloneIdempotent | index.js:86-111 | cloning a clone gives the same value |
| MergeInvariants.MergeWellFormed | index.js:62-80 | when target, source and every hook result have unique own keys at every depth, so does the merge |
| MergeInvariants.MergeUnlessCustomSpecifiedWellFormed | index.js:113-124 | when target, source and every hook result have unique own keys at every depth, so does the result of the hook entry point |
| MergeInvariants.OverlayWellFormed | index.js:37-47 | when target, source, the destination so far and every hook result have unique own keys at every depth, so does the result of the key loop of the object strategy |
| MergeInvariants.EntryWellFormed | index.js:42-46 | when target, source and every hook result have unique own keys at every depth, so does the value assigned to one key |
| MergeInvariants.SetKeyWellFormed | index.js:43-45 | assignment keeps own keys unique |
| MergeInvariants.DeepCloneCongruent | index.js:86-111 | cloning does not depend on the hook |
| MergeInvariants.ArrayMergeCongruent | index.js:16-24 | the array strategy does not depend on the hook |
| MergeInvariants.MergeCongruent | index.js:62-80 | two configurations with the same classifier, cloning flag and symbol flag that agree on the hook strictly below the path merge alike |
| MergeInvariants.MergeUnlessCustomSpecifiedCongruent | index.js:113-124 | two configurations with the same classifier, cloning flag and symbol flag whose hooks agree at the path and strictly below it give the same result at the hook entry point |
| MergeInvariants.OverlayCongruent | index.js:37-47 | two configurations with the same classifier, cloning flag and symbol flag that agree on the hook strictly below the path run the key loop alike |
| MergeInvariants.EntryCongruent | index.js:42-46 | two configurations with the same classifier, cloning flag and symbol flag that agree on the hook strictly below the path assign the same value at one key; the recursive call is at `path ++ [key]` |
| MergeInvariants.HookWithoutFunctionsIsNoHook | index.js:114-123 | any hook that never returns a function merges exactly as no hook |
| MergeInvariants.RootIsNeverCustomMerged | index.js:161-163 | `deepMerge` ignores whatever the hook answers for the empty path: the root always goes through `merge` |
| Heap.HeapClonePropsAcyclic | index.js:102-107 | on an acyclic store, the cloning loop over a stored object equals the tree cloning loop over its unfolding |
| Heap.HeapCloneAcyclic | index.js:86-111 | on an acyclic store, when every identity on the stack is an ancestor, the stack never cuts anything: cloning a reference gives the tree `DeepClone` of the tree it denotes |
| Examples.OverlayExample | test.js:15-26 | `{key1:'value1', key3:'value3'}` merged with `{key1:'changed', key2:'value2'}` has exactly the keys `key1`, `key3`, `key2` in that order, reading `changed`, `value3`, `value2` |
| Examples.NestedExample | test.js:28-51 | nested objects merge key by key: the result has only `key1`, whose object has exactly `subkey1`, `subkey2`, `subkey3`, reading `changed`, `value2`, `added` |
| Examples.ArrayExample | test.js:205-214 | `['one','two']` merged with `['one','three']` is `['one','two','one','three']` |
| Examples.RegExpExample | test.js:322-328 | with `clone: true` the merged RegExp is the source's very object |
| Examples.UndefinedOverwritesExample | test.js:397-413 | an own `undefined` in the source becomes an own `undefined` in the result, whatever the target held |
| Examples.MergePeopleExample | test.js:428-481 | with a hook that returns `mergePeople` for `people`, the result has exactly `letters` and `people`; `letters` is `['a','b','c']` and `people` is exactly `{first: 'Alex-Smith', second: 'Bert-Bertson', third: 'Car'}` |
| Examples.CustomMergeExample | test.js:483-525 | the result has exactly the keys `letters` and `people`; the hook for `letters` returns `'merged letters'`, and `people` is merged as usual into exactly `first`, `second`, `third` reading `Smith`, `Bertson`, `Car` |
| Examples.SymbolKeyExample | test.js:564-573 | a symbol key of the source is copied by default, and the result's list of symbol keys equals the source's; with `includeSymbol: false` it is left out |
| Examples.FalseyIsMergeableExample | test.js:585-612 | with a classifier that admits everything, `false` on both sides reaches the hook, and its result is taken |
| Examples.PrototypePollutionExample | index.js:153-158 | a parsed `{"__proto__": ...}` leaves no own `__proto__` in the result |
| Examples.CycleExample | index.js:86-98 | `o.self = o` clones to `{self: undefined}` |
| Examples.SharedExample | index.js:93-105 | `[a, a]` with `a = {n: 1}` clones both occurrences in full |

## Left out

- User-supplied `arrayMerge` and `objectMerge` overrides (index.js:55-56) are not modelled. They call back into the engine, which is passed as a fourth argument, and they can do anything. The default strategies are modelled.
- The engine passed as the fourth argument to `customMerge` functions (index.js:120) is not modelled. A hook function sees the target, the source and the path.
- A custom classifier (index.js:54) is modelled as any pure predicate on values. When it admits a value that is not a plain object or an array, the model diverges from JavaScript:
  - `Object.keys` of a string would list its indices, and of `null`/`undefined` it would throw. The model enumerates nothing.
  - Assignment into a `dest` that is not an `Obj` (index.js:43 and index.js:45) leaves it unchanged in the model. Such a `dest` is a primitive, or a Date or RegExp target kept as it is under `clone: false`. In JavaScript, assignment into a primitive throws in strict mode, and assignment into a Date or RegExp adds an own property to it.
- The `__proto__` setter is not modelled. When a cloned object receives a `__proto__` key (index.js:105), JavaScript would replace the clone's prototype. The same holds for the assignments of the object strategy (index.js:43 and index.js:45) when the source has an own `__proto__` key that is safe on the target, for instance when the target has one as an own property too and cloning is on: `dest` is then a fresh clone, on which `__proto__` is the inherited setter. The model stores an ordinary property in every case.
- Keys that look like array indices enumerate first in ascending order in JavaScript. The model keeps plain insertion order.
- A clone loses its original's prototype. The model records only that a fresh `{}` inherits the keys of `Object.prototype`. Other inherited keys are not modelled.
- Inherited keys of Dates and RegExps are not modelled. These values are opaque.
- Reference identity and mutation are not modelled in the tree-valued merge. Under `clone: false` the JavaScript engine mutates and returns the target (index.js:82-84). The model returns the resulting value. This agrees with JavaScript only when no array or object occurs twice in the target and source together. With a shared container the results differ: for a target `{a: o, b: o}` and a source `{a: {x: 1}, b: {y: 2}}`, both recursive merges write into `o`, so JavaScript ends with `a` equal to `{x: 1, y: 2}` while the model gives `{x: 1}`. And `deepMerge({k: arr}, {k: arr}, {clone: false})` never terminates in JavaScript, because the loop at index.js:19-21 pushes onto the very array whose length bounds it. Claims such as "the result is not the same object" (test.js:97-142) cannot be stated on values.
- Heap.HeapClone classifies stored nodes as the default classifier does, and it has no `ensures` of its own. Its meaning is given by Heap.HeapCloneAcyclic and the two examples. It is not proved that cloning a cyclic store yields the unfolding with each back-edge cut. Only the self-loop example shows this.
- Engine.Merge: its inputs are finite trees, so it always terminates. A JavaScript target and source may be cyclic; when both repeat the cycle along the same keys, the recursive call at index.js:42-43 follows it until the call stack overflows. Cycles are modelled only for `deepClone`, in `Heap`.
- Engine.DeepClone has no stack on trees. A value tree cannot contain itself, so the stack check at index.js:88 and index.js:97 never fires. The store model in `Heap` covers it.
- The `try`/`catch` in `propertyIsOnObject` (index.js:146-150) is modelled as `false` for non-objects.
- `Object.prototype.toString` tags (index.js:6) are modelled by the `OpaqueKind` of a value.
- `index.d.ts` is not part of this model. It holds type declarations only.

=== FILE: clone_facts.dfy ===
/** Properties of the tree-valued `deepClone`. */
module CloneFacts {
  import opened Values
  import opened Engine

  predicate KeysAreOwn(v: Value, keys: seq<Key>) {
    v.Obj? && forall k :: k in keys ==> k in KeysOf(v.own)
  }

  /** Reading the cloning loop's result: cloned keys read as the clone of the original's value. */
  lemma {:induction false} ClonePropsRead(cfg: Config, v: Value, keys: seq<Key>, acc: seq<Prop<Value>>, h: set<Key>, k: Key)
    requires KeysAreOwn(v, keys)
    ensures Read(Obj(CloneProps(cfg, v, keys, acc), h), k)
      == if k in keys then DeepClone(cfg, Read(v, k)) else Read(Obj(acc, h), k)
    decreases |keys|
  {
    if keys != [] {
      var k0 := keys[0];
      var i := IndexOf(v.own, k0).value;
      var acc' := SetProp(acc, k0, DeepClone(cfg, v.own[i].val));
      assert CloneProps(cfg, v, keys, acc) == CloneProps(cfg, v, keys[1..], acc');
      ClonePropsRead(cfg, v, keys[1..], acc', h, k);
      ReadSetKey(Obj(acc, h), k0, DeepClone(cfg, v.own[i].val), k);
    }
  }

  /** One step of the cloning loop over fresh, distinct keys keeps the rest fresh and distinct. */
  lemma FreshKeyAppended(acc: seq<Prop<Value>>, keys: seq<Key>, x: Value)
    requires keys != [] && Distinct(keys) && Distinct(KeysOf(acc))
    requires forall k :: k in keys ==> k !in KeysOf(acc)
    ensures var acc' := SetProp(acc, keys[0], x);
      && KeysOf(acc') == KeysOf(acc) + [keys[0]]
      && Distinct(keys[1..]) && Distinct(KeysOf(acc'))
      && forall k :: k in keys[1..] ==> k !in KeysOf(acc')
  {
    var acc' := SetProp(acc, keys[0], x);
    assert keys[0] in keys;
    KeysOfSetProp(acc, keys[0], x);
    SetPropKeepsDistinct(acc, keys[0], x);
    DistinctTail(keys);
    forall k | k in keys[1..] ensures k !in KeysOf(acc') {
      assert k in keys;
    }
  }

  lemma ClonePropsStep(cfg: Config, v: Value, keys: seq<Key>, acc: seq<Prop<Value>>)
    requires keys != []
    ensures CloneProps(cfg, v, keys, acc) == CloneProps(cfg, v, keys[1..], SetProp(acc, keys[0], ClonedAt(cfg, v, keys[0])))
  {
  }

  lemma AppendHead(a: seq<Key>, keys: seq<Key>)
    requires keys != []
    ensures a + [keys[0]] + keys[1..] == a + keys
  {
  }

  /** With fresh, distinct keys the cloning loop appends them in order. */
  lemma {:induction false} ClonePropsKeys(cfg: Config, v: Value, keys: seq<Key>, acc: seq<Prop<Value>>)
    requires Distinct(keys) && Distinct(KeysOf(acc))
    requires forall k :: k in keys ==> k !in KeysOf(acc)
    ensures KeysOf(CloneProps(cfg, v, keys, acc)) == KeysOf(acc) + keys
    decreases |keys|
  {
    if keys == [] {
      assert KeysOf(acc) + keys == KeysOf(acc);
    } else {
      var acc' := SetProp(acc, keys[0], ClonedAt(cfg, v, keys[0]));
      FreshKeyAppended(acc, keys, ClonedAt(cfg, v, keys[0]));
      ClonePropsKeys(cfg, v, keys[1..], acc');
      ClonePropsStep(cfg, v, keys, acc);
      AppendHead(KeysOf(acc), keys);
    }
  }

  /**
   * deepClone copies arrays element by element, rebuilds a mergeable value
   * as a fresh plain object holding clones of exactly its enumerated keys,
   * in enumeration order, and passes every other value through untouched.
   */
  lemma DeepCloneShape(cfg: Config, v: Value)
    ensures v.Arr? ==> DeepClone(cfg, v).Arr? && |DeepClone(cfg, v).elems| == |v.elems|
    ensures v.Arr? ==> forall i :: 0 <= i < |v.elems| ==> DeepClone(cfg, v).elems[i] == DeepClone(cfg, v.elems[i])
    ensures !v.Arr? && !cfg.isMergeable(v) ==> DeepClone(cfg, v) == v
    ensures !v.Arr? && cfg.isMergeable(v) ==>
      DeepClone(cfg, v).Obj? && DeepClone(cfg, v).hidden == ObjectPrototypeKeys
    ensures !v.Arr? && cfg.isMergeable(v) ==> forall k ::
      Read(DeepClone(cfg, v), k) == if k in GetKeys(cfg, v) then DeepClone(cfg, Read(v, k)) else Undefined
    ensures !v.Arr? && cfg.isMergeable(v) && WellFormed(v) ==>
      KeysOf(DeepClone(cfg, v).own) == GetKeys(cfg, v)
  {
    if !v.Arr? && cfg.isMergeable(v) {
      var keys := GetKeys(cfg, v);
      if v.Obj? {
        forall k ensures Read(DeepClone(cfg, v), k)
          == if k in keys then DeepClone(cfg, Read(v, k)) else Undefined
        {
          ClonePropsRead(cfg, v, keys, [], ObjectPrototypeKeys, k);
        }
        if WellFormed(v) {
          ClonePropsKeys(cfg, v, keys, []);
        }
      }
    }
  }

  /** Every value the cloning loop stores is well formed when the original is. */
  lemma {:induction false} ClonePropsWellFormed(cfg: Config, v: Value, keys: seq<Key>, acc: seq<Prop<Value>>)
    requires WellFormed(v)
    requires Distinct(KeysOf(acc)) && forall i :: 0 <= i < |acc| ==> WellFormed(acc[i].val)
    ensures var r := CloneProps(cfg, v, keys, acc);
      Distinct(KeysOf(r)) && forall i :: 0 <= i < |r| ==> WellFormed(r[i].val)
    decreases v, 0, |keys|
  {
    if keys != [] {
      var k0 := keys[0];
      var x := ClonedAt(cfg, v, k0);
      if v.Obj? && IndexOf(v.own, k0).Some? {
        DeepCloneWellFormed(cfg, v.own[IndexOf(v.own, k0).value].val);
      }
      var acc' := SetProp(acc, k0, x);
      SetPropKeepsDistinct(acc, k0, x);
      assert forall i :: 0 <= i < |acc'| ==> acc'[i] == Prop(k0, x) || acc'[i] == acc[i];
      ClonePropsWellFormed(cfg, v, keys[1..], acc');
    }
  }

  /** deepClone keeps the object invariant: a clone of a well-formed value is well formed. */
  lemma {:induction false} DeepCloneWellFormed(cfg: Config, v: Value)
    requires WellFormed(v)
    ensures WellFormed(DeepClone(cfg, v))
    decreases v, 1
  {
    if v.Arr? {
      forall i | 0 <= i < |v.elems| ensures WellFormed(DeepClone(cfg, v.elems[i])) {
        DeepCloneWellFormed(cfg, v.elems[i]);
      }
    } else if cfg.isMergeable(v) {
      ClonePropsWellFormed(cfg, v, GetKeys(cfg, v), []);
    }
  }

  lemma {:induction false} OfKindAppend(a: seq<Key>, b: seq<Key>, str: bool)
    ensures OfKind(a + b, str) == OfKind(a, str) + OfKind(b, str)
  {
    if a == [] {
      assert a + b == b;
    } else {
      assert (a + b)[0] == a[0];
      assert (a + b)[1..] == a[1..] + b;
      OfKindAppend(a[1..], b, str);
      if a[0].Str? == str {
        assert OfKind(a + b, str) == [a[0]] + OfKind(a[1..] + b, str);
        assert OfKind(a, str) == [a[0]] + OfKind(a[1..], str);
      } else {
        assert OfKind(a + b, str) == OfKind(a[1..] + b, str);
        assert OfKind(a, str) == OfKind(a[1..], str);
      }
    }
  }

  lemma {:induction false} OfKindAllOf(a: seq<Key>, str: bool)
    requires forall k :: k in a ==> k.Str? == str
    ensures OfKind(a, str) == a
  {
    if a != [] {
      assert a[0] in a;
      forall k | k in a[1..] ensures k.Str? == str {
        assert k in a;
      }
      OfKindAllOf(a[1..], str);
      assert OfKind(a, str) == [a[0]] + OfKind(a[1..], str);
      assert a == [a[0]] + a[1..];
    }
  }

  lemma {:induction false} OfKindNoneOf(a: seq<Key>, str: bool)
    requires forall k :: k in a ==> k.Str? != str
    ensures OfKind(a, str) == []
  {
    if a != [] {
      assert a[0] in a;
      forall k | k in a[1..] ensures k.Str? != str {
        assert k in a;
      }
      OfKindNoneOf(a[1..], str);
      assert OfKind(a, str) == OfKind(a[1..], str);
    }
  }

  /** An object with string keys only is enumerated in insertion order. */
  lemma StringKeyedEnumeration(cfg: Config, v: Value)
    requires v.Obj? && forall i :: 0 <= i < |v.own| ==> v.own[i].key.Str?
    ensures GetKeys(cfg, v) == KeysOf(v.own)
  {
    var ks := KeysOf(v.own);
    OfKindAllOf(ks, true);
    OfKindNoneOf(ks, false);
  }

  /** Enumerating the keys of an object built in enumeration order gives back that order. */
  lemma EnumerableKeysOfEnumeration(cfg: Config, v: Value, own: seq<Prop<Value>>)
    requires v.Obj?
    requires KeysOf(own) == GetKeys(cfg, v)
    ensures EnumerableKeys(own, cfg.includeSymbol) == KeysOf(own)
  {
    var strs := StringKeys(v.own);
    var syms := if cfg.includeSymbol then SymbolKeys(v.own) else [];
    var ks := KeysOf(own);
    assert ks == strs + syms;
    OfKindMembers(KeysOf(v.own), true);
    OfKindMembers(KeysOf(v.own), false);
    OfKindAllOf(strs, true);
    OfKindNoneOf(strs, false);
    OfKindAppend(strs, syms, true);
    OfKindNoneOf(syms, true);
    assert OfKind(ks, true) == strs;
    if cfg.includeSymbol {
      OfKindAppend(strs, syms, false);
      OfKindAllOf(syms, false);
      assert OfKind(ks, false) == syms;
    }
  }

  /** The cloning loop rebuilds an object whose values are already clones of themselves. */
  lemma {:induction false} ClonePropsFixpoint(cfg: Config, r: Value, n: nat)
    requires r.Obj? && n <= |r.own| && Distinct(KeysOf(r.own))
    requires forall i :: 0 <= i < |r.own| ==> DeepClone(cfg, r.own[i].val) == r.own[i].val
    ensures CloneProps(cfg, r, KeysOf(r.own)[n..], r.own[..n]) == r.own
    decreases |r.own| - n
  {
    var ks := KeysOf(r.own);
    if n < |r.own| {
      var k := ks[n];
      IndexOfKeyUnique(ks, k, n);
      assert k !in KeysOf(r.own[..n]);
      assert SetProp(r.own[..n], k, r.own[n].val) == r.own[..n + 1];
      assert ks[n..][1..] == ks[n + 1..];
      ClonePropsFixpoint(cfg, r, n + 1);
    } else {
      assert r.own[..n] == r.own;
    }
  }

  /** Cloning a clone changes nothing. */
  lemma {:induction false} DeepCloneIdempotent(cfg: Config, v: Value)
    requires WellFormed(v)
    ensures DeepClone(cfg, DeepClone(cfg, v)) == DeepClone(cfg, v)
    decreases v
  {
    var r := DeepClone(cfg, v);
    if v.Arr? {
      forall i | 0 <= i < |v.elems| ensures DeepClone(cfg, r.elems[i]) == r.elems[i] {
        DeepCloneIdempotent(cfg, v.elems[i]);
      }
      assert DeepClone(cfg, r).elems == r.elems;
    } else if cfg.isMergeable(v) && cfg.isMergeable(r) {
      DeepCloneShape(cfg, v);
      DeepCloneWellFormed(cfg, v);
      if v.Obj? {
        var ks := KeysOf(r.own);
        assert ks == GetKeys(cfg, v);
        forall i | 0 <= i < |r.own| ensures DeepClone(cfg, r.own[i].val) == r.own[i].val {
          var k := ks[i];
          IndexOfKeyUnique(ks, k, i);
          assert Read(r, k) == r.own[i].val;
          var j := IndexOf(v.own, k).value;
          DeepCloneIdempotent(cfg, v.own[j].val);
        }
        EnumerableKeysOfEnumeration(cfg, v, r.own);
        assert GetKeys(cfg, r) == ks;
        ClonePropsFixpoint(cfg, r, 0);
        assert ks[0..] == ks && r.own[..0] == [];
      } else {
        assert r == Obj([], ObjectPrototypeKeys);
      }
    }
  }

  /** The cloning loop adds no key beyond those already present and those it is given. */
  lemma {:induction false} ClonePropsKeysWithin(cfg: Config, v: Value, keys: seq<Key>, acc: seq<Prop<Value>>)
    ensures forall k :: k in KeysOf(CloneProps(cfg, v, keys, acc)) ==> k in KeysOf(acc) || k in keys
    decreases |keys|
  {
    if keys != [] {
      var k0 := keys[0];
      var x := ClonedAt(cfg, v, k0);
      var acc' := SetProp(acc, k0, x);
      assert CloneProps(cfg, v, keys, acc) == CloneProps(cfg, v, keys[1..], acc');
      KeysOfSetProp(acc, k0, x);
      ClonePropsKeysWithin(cfg, v, keys[1..], acc');
    }
  }
}

=== FILE: engine.dfy ===
/**
 * The merge engine: value classification, key enumeration, the
 * prototype-pollution guard, deep cloning and the mutually recursive
 * merge / objectMerge / mergeUnlessCustomSpecified dispatch, with the
 * default array and object strategies.
 */
module Engine {
  import opened Wrappers
  import opened Values

  /** A per-path custom merge function, called with `(target, source, path)`. */
  type CustomMerge = (Value, Value, Path) -> Value

  /** The settings a `DeepMergeProgram` is constructed with, fixed for a whole merge. */
  datatype Config = Config(
    isMergeable: Value -> bool,
    customMerge: Option<Path -> Option<CustomMerge>>,
    clone: bool,
    includeSymbol: bool)

  /**
   * The caller's options; `None` is an option left out (or, for the two
   * function-valued options, given a falsy value).
   */
  datatype Options = Options(
    isMergeableObject: Option<Value -> bool>,
    customMerge: Option<Path -> Option<CustomMerge>>,
    clone: Option<bool>,
    includeSymbol: Option<bool>)

  const NoOptions: Options := Options(None, None, None, None)

  /** The default classifier: non-null objects other than Dates and RegExps. */
  predicate IsMergeableObject(v: Value) {
    v.Arr? || v.Obj?
  }

  /** The constructor: every option falls back to its default. */
  function FromOptions(o: Options): Config {
    Config(
      o.isMergeableObject.GetOr(IsMergeableObject),
      o.customMerge,
      o.clone != Some(false),
      o.includeSymbol != Some(false))
  }

  /**
   * The own enumerable symbol keys. Non-objects have none (a custom
   * classifier is the only way one reaches here).
   */
  function GetEnumerableOwnPropertySymbols(v: Value): (r: seq<Key>)
    ensures forall k :: k in r <==> v.Obj? && k in KeysOf(v.own) && k.Sym?
    ensures v.Obj? && Distinct(KeysOf(v.own)) ==> Distinct(r)
  {
    if v.Obj? then
      OfKindMembers(KeysOf(v.own), false);
      if Distinct(KeysOf(v.own)) then OfKindDistinct(KeysOf(v.own), false); SymbolKeys(v.own)
      else SymbolKeys(v.own)
    else []
  }

  /** The keys an object is merged or cloned along: string keys, then symbol keys if configured. */
  function GetKeys(cfg: Config, v: Value): (r: seq<Key>)
    ensures forall k :: k in r <==> v.Obj? && k in KeysOf(v.own) && (k.Str? || cfg.includeSymbol)
    ensures forall i, j :: 0 <= i < j < |r| && r[i].Sym? ==> r[j].Sym?
    ensures v.Obj? && Distinct(KeysOf(v.own)) ==> Distinct(r)
  {
    if v.Obj? then
      var r := StringKeys(v.own) + (if cfg.includeSymbol then GetEnumerableOwnPropertySymbols(v) else []);
      assert r == EnumerableKeys(v.own, cfg.includeSymbol);
      r
    else []
  }

  /** Both enumerations keep the keys of each kind in the order they were inserted. */
  lemma EnumerationInInsertionOrder(cfg: Config, v: Value)
    requires v.Obj? && Distinct(KeysOf(v.own))
    ensures OrderedWithinKind(GetEnumerableOwnPropertySymbols(v), KeysOf(v.own))
    ensures OrderedWithinKind(GetKeys(cfg, v), KeysOf(v.own))
  {
    OfKindOrder(KeysOf(v.own), false);
    EnumerableKeysOrdered(v.own, cfg.includeSymbol);
  }

  /** `key in object`, reporting false for non-objects instead of throwing. */
  predicate PropertyIsOnObject(o: Value, k: Key) {
    o.Obj? && (k in KeysOf(o.own) || k in o.hidden)
  }

  /** Reachable on the object, but not an own enumerable property of it. */
  predicate PropertyIsUnsafe(o: Value, k: Key) {
    PropertyIsOnObject(o, k) && !(o.Obj? && k in KeysOf(o.own))
  }

  /**
   * `deepClone(value, [])`. On a tree of values no container can be its own
   * ancestor, so the ancestor-stack check never fires here; the store-based
   * model in module Heap covers it.
   */
  function DeepClone(cfg: Config, v: Value): (r: Value)
    decreases v, 1
  {
    if v.Arr? then
      Arr(seq(|v.elems|, i requires 0 <= i < |v.elems| => DeepClone(cfg, v.elems[i])))
    else if cfg.isMergeable(v) then
      Obj(CloneProps(cfg, v, GetKeys(cfg, v), []), ObjectPrototypeKeys)
    else v
  }

  /** The loop `obj[key] = deepClone(value[key])` over `keys`, starting from the entries `acc`. */
  function CloneProps(cfg: Config, v: Value, keys: seq<Key>, acc: seq<Prop<Value>>): seq<Prop<Value>>
    decreases v, 0, |keys|
  {
    if keys == [] then acc
    else CloneProps(cfg, v, keys[1..], SetProp(acc, keys[0], ClonedAt(cfg, v, keys[0])))
  }

  /** `deepClone(value[key])`: the value the cloning loop assigns at `k`. */
  function ClonedAt(cfg: Config, v: Value, k: Key): Value
    decreases v, 0, 0
  {
    if !v.Obj? then Undefined
    else match IndexOf(v.own, k)
      case Some(i) => DeepClone(cfg, v.own[i].val)
      // Not reached: the keys are the value's own keys.
      case None => Undefined
  }

  function CloneUnlessOtherwiseSpecified(cfg: Config, v: Value): Value {
    if cfg.clone then DeepClone(cfg, v) else v
  }

  /** The default array strategy: the target's elements, then the source's, each cloned if configured. */
  function ArrayMerge(cfg: Config, target: Value, source: Value, path: Path): (r: Value)
    requires target.Arr? && source.Arr?
    ensures r.Arr? && |r.elems| == |target.elems| + |source.elems|
    ensures forall i :: 0 <= i < |target.elems| ==>
      r.elems[i] == CloneUnlessOtherwiseSpecified(cfg, target.elems[i])
    ensures forall j :: 0 <= j < |source.elems| ==>
      r.elems[|target.elems| + j] == CloneUnlessOtherwiseSpecified(cfg, source.elems[j])
  {
    var dest := CloneUnlessOtherwiseSpecified(cfg, target);
    Arr(dest.elems + seq(|source.elems|, i requires 0 <= i < |source.elems| =>
      CloneUnlessOtherwiseSpecified(cfg, source.elems[i])))
  }

  /** What `customMerge(path)` supplies: `None` when unset or when it returns a non-function. */
  function CustomMergeAt(cfg: Config, path: Path): Option<CustomMerge> {
    match cfg.customMerge
    case None => None
    case Some(lookup) => lookup(path)
  }

  /** `merge(target, source, path)`: choose a strategy from the shapes of source and target. */
  function Merge(cfg: Config, target: Value, source: Value, path: Path): Value
    decreases source, 4
  {
    if source.Arr? then
      if target.Arr? then ArrayMerge(cfg, target, source, path)
      else CloneUnlessOtherwiseSpecified(cfg, source)
    else if cfg.isMergeable(source) then
      if !target.Arr? && cfg.isMergeable(target) then ObjectMerge(cfg, target, source, path)
      else CloneUnlessOtherwiseSpecified(cfg, source)
    else source
  }

  /** `mergeUnlessCustomSpecified`: a custom function for `path` takes over the whole subtree. */
  function MergeUnlessCustomSpecified(cfg: Config, target: Value, source: Value, path: Path): Value
    decreases source, 5
  {
    match CustomMergeAt(cfg, path)
    case Some(f) => f(target, source, path)
    case None => Merge(cfg, target, source, path)
  }

  /** The default object strategy: overlay the source's keys onto a clone of the target. */
  function ObjectMerge(cfg: Config, target: Value, source: Value, path: Path): Value
    decreases source, 3
  {
    Overlay(cfg, target, source, path, CloneUnlessOtherwiseSpecified(cfg, target), GetKeys(cfg, source))
  }

  /** The loop of the default object strategy over `keys`, writing into `dest`; unsafe keys are skipped. */
  function Overlay(cfg: Config, target: Value, source: Value, path: Path, dest: Value, keys: seq<Key>): Value
    decreases source, 2, |keys|
  {
    if keys == [] then dest
    else
      var k := keys[0];
      var dest' :=
        if PropertyIsUnsafe(target, k) then dest
        else SetKey(dest, k, Entry(cfg, target, source, path, k));
      Overlay(cfg, target, source, path, dest', keys[1..])
  }

  /**
   * The value the default object strategy assigns at a safe key `k`: a
   * recursive merge when `k` is on the target and the source's value is
   * mergeable, a clone of the source's value otherwise.
   */
  function Entry(cfg: Config, target: Value, source: Value, path: Path, k: Key): Value
    decreases source, 1
  {
    if !source.Obj? then CloneUnlessOtherwiseSpecified(cfg, Undefined)
    else match IndexOf(source.own, k)
      case Some(i) =>
        var s := source.own[i].val;
        if PropertyIsOnObject(target, k) && cfg.isMergeable(s) then
          MergeUnlessCustomSpecified(cfg, Read(target, k), s, path + [k])
        else CloneUnlessOtherwiseSpecified(cfg, s)
      // Not reached: the keys are the source's own keys (`source[k]` would read undefined).
      case None => CloneUnlessOtherwiseSpecified(cfg, Undefined)
  }

  /** The exported entry point: the root is merged with `merge`, never through `customMerge`. */
  function DeepMerge(target: Value, source: Value, options: Options): Value {
    Merge(FromOptions(options), target, source, [])
  }
}

=== FILE: examples.dfy ===
/** Behaviours pinned down by the repository's test cases, derived from the model's general lemmas. */
module Examples {
  import opened Wrappers
  import opened Values
  import opened Engine
  import opened CloneFacts
  import opened MergeFacts
  import opened Heap

  function P(name: string, v: Value): Prop<Value> {
    Prop(Str(name), v)
  }

  function Txt(s: string): Value {
    Prim(Text(s))
  }

  /** An object literal. */
  function Lit(own: seq<Prop<Value>>): Value {
    Obj(own, ObjectPrototypeKeys)
  }

  /** The configuration `deepMerge(target, source)` runs with. */
  const Defaults: Config := FromOptions(NoOptions)

  lemma TextNotMergeable(cfg: Config, s: string)
    requires cfg.isMergeable == IsMergeableObject
    ensures CloneUnlessOtherwiseSpecified(cfg, Txt(s)) == Txt(s)
    ensures !cfg.isMergeable(Txt(s))
  {
  }

  /** Every key `Object.prototype` provides has at least seven characters and none starts with `s`. */
  lemma NotInherited(name: string)
    requires |name| < 7 || name[0] == 's'
    ensures Str(name) !in ObjectPrototypeKeys
  {
    forall k | k in ObjectPrototypeKeys ensures k != Str(name) {
      assert k.Str? && 7 <= |k.name| && k.name[0] != 's';
    }
  }

  /** With cloning on, the object strategy's keys are the target's enumeration followed by the new safe source keys. */
  lemma ObjectMergeKeyList(cfg: Config, t: Value, s: Value, p: Path, tk: seq<Key>, sk: seq<Key>, added: seq<Key>)
    requires t.Obj? && cfg.isMergeable(t) && cfg.clone && WellFormed(t)
    requires GetKeys(cfg, t) == tk && GetKeys(cfg, s) == sk && NewKeys(t, tk, sk) == added
    ensures ObjectMerge(cfg, t, s, p).Obj? && KeysOf(ObjectMerge(cfg, t, s, p).own) == tk + added
  {
    ObjectMergeKeys(cfg, t, s, p);
    DeepCloneShape(cfg, t);
  }

  const FlatTarget: Value := Lit([P("key1", Txt("value1")), P("key3", Txt("value3"))])
  const FlatSource: Value := Lit([P("key1", Txt("changed")), P("key2", Txt("value2"))])

  lemma FlatEnumeration()
    ensures KeysOf(FlatTarget.own) == [Str("key1"), Str("key3")]
    ensures KeysOf(FlatSource.own) == [Str("key1"), Str("key2")]
    ensures GetKeys(Defaults, FlatSource) == [Str("key1"), Str("key2")]
    ensures GetKeys(Defaults, FlatTarget) == [Str("key1"), Str("key3")]
  {
    Enumerates(Defaults, FlatSource, [Str("key1"), Str("key2")]);
    Enumerates(Defaults, FlatTarget, [Str("key1"), Str("key3")]);
  }

  lemma FlatShapes()
    ensures DeepMerge(FlatTarget, FlatSource, NoOptions) == ObjectMerge(Defaults, FlatTarget, FlatSource, [])
    ensures Read(FlatSource, Str("key1")) == Txt("changed")
  {
    assert KeysOf(FlatSource.own) == [Str("key1"), Str("key2")];
  }

  lemma FlatKeyOverwritten()
    ensures Read(ObjectMerge(Defaults, FlatTarget, FlatSource, []), Str("key1")) == Txt("changed")
  {
    FlatShapes();
    FlatEnumeration();
    TextNotMergeable(Defaults, "changed");
    ObjectMergeRead(Defaults, FlatTarget, FlatSource, [], Str("key1"));
  }

  lemma FlatAddedKeyFacts()
    ensures Str("key2") !in ObjectPrototypeKeys
    ensures !PropertyIsOnObject(FlatTarget, Str("key2"))
    ensures Str("key2") in GetKeys(Defaults, FlatSource)
    ensures Read(FlatSource, Str("key2")) == Txt("value2")
  {
    FlatEnumeration();
    NotInherited("key2");
  }

  lemma FlatKeyAdded()
    ensures Read(ObjectMerge(Defaults, FlatTarget, FlatSource, []), Str("key2")) == Txt("value2")
  {
    FlatAddedKeyFacts();
    TextNotMergeable(Defaults, "value2");
    NewSourceKeyCopied(Defaults, FlatTarget, FlatSource, [], Str("key2"));
  }

  lemma FlatKeptKeyFacts()
    ensures Str("key3") !in GetKeys(Defaults, FlatSource)
    ensures Str("key3") in GetKeys(Defaults, FlatTarget)
    ensures Read(FlatTarget, Str("key3")) == Txt("value3")
  {
    FlatEnumeration();
    IndexOfKeyUnique(KeysOf(FlatTarget.own), Str("key3"), 1);
  }

  lemma FlatKeyKept()
    ensures Read(ObjectMerge(Defaults, FlatTarget, FlatSource, []), Str("key3")) == Txt("value3")
  {
    FlatKeptKeyFacts();
    TextNotMergeable(Defaults, "value3");
    ObjectMergeKeepsTarget(Defaults, FlatTarget, FlatSource, [], Str("key3"));
  }

  lemma FlatNewKeys()
    ensures NewKeys(FlatTarget, [Str("key1"), Str("key3")], [Str("key1"), Str("key2")]) == [Str("key2")]
  {
    FlatAddedKeyFacts();
    assert [Str("key1"), Str("key2")][1..] == [Str("key2")];
  }

  lemma FlatWellFormed()
    ensures WellFormed(FlatTarget)
  {
    assert KeysOf(FlatTarget.own) == [Str("key1"), Str("key3")];
  }

  lemma FlatKeys()
    ensures var r := ObjectMerge(Defaults, FlatTarget, FlatSource, []);
      r.Obj? && KeysOf(r.own) == [Str("key1"), Str("key3"), Str("key2")]
  {
    FlatEnumeration();
    FlatWellFormed();
    FlatNewKeys();
    ObjectMergeKeyList(Defaults, FlatTarget, FlatSource, [],
      [Str("key1"), Str("key3")], [Str("key1"), Str("key2")], [Str("key2")]);
  }

  /** Existing keys are overwritten, new keys appended, untouched keys kept, and no other key appears. */
  lemma OverlayExample()
    ensures var r := DeepMerge(FlatTarget, FlatSource, NoOptions);
      && r.Obj? && KeysOf(r.own) == [Str("key1"), Str("key3"), Str("key2")]
      && Read(r, Str("key1")) == Txt("changed")
      && Read(r, Str("key2")) == Txt("value2")
      && Read(r, Str("key3")) == Txt("value3")
  {
    FlatShapes();
    FlatKeys();
    FlatKeyOverwritten();
    FlatKeyAdded();
    FlatKeyKept();
  }

  const NestedInnerTarget: Value := Lit([P("subkey1", Txt("value1")), P("subkey2", Txt("value2"))])
  const NestedInnerSource: Value := Lit([P("subkey1", Txt("changed")), P("subkey3", Txt("added"))])
  const NestedTarget: Value := Lit([P("key1", NestedInnerTarget)])
  const NestedSource: Value := Lit([P("key1", NestedInnerSource)])

  lemma NestedShapes()
    ensures KeysOf(NestedTarget.own) == [Str("key1")] && KeysOf(NestedSource.own) == [Str("key1")]
    ensures Read(NestedTarget, Str("key1")) == NestedInnerTarget && Read(NestedSource, Str("key1")) == NestedInnerSource
    ensures DeepMerge(NestedTarget, NestedSource, NoOptions) == ObjectMerge(Defaults, NestedTarget, NestedSource, [])
    ensures Str("key1") in GetKeys(Defaults, NestedSource)
    ensures PropertyIsOnObject(NestedTarget, Str("key1")) && !PropertyIsUnsafe(NestedTarget, Str("key1"))
  {
  }

  lemma NestedInnerMerge()
    ensures MergeUnlessCustomSpecified(Defaults, NestedInnerTarget, NestedInnerSource, [Str("key1")])
         == ObjectMerge(Defaults, NestedInnerTarget, NestedInnerSource, [Str("key1")])
  {
    var k := Str("key1");
    assert CustomMergeAt(Defaults, [k]) == None;
    assert Defaults.isMergeable(NestedInnerSource) && Defaults.isMergeable(NestedInnerTarget);
  }

  lemma NestedOuterRead()
    ensures Read(ObjectMerge(Defaults, NestedTarget, NestedSource, []), Str("key1"))
         == MergeUnlessCustomSpecified(Defaults, NestedInnerTarget, NestedInnerSource, [Str("key1")])
  {
    var k := Str("key1");
    NestedShapes();
    assert Defaults.isMergeable(NestedInnerSource);
    ObjectMergeRead(Defaults, NestedTarget, NestedSource, [], k);
    assert [] + [k] == [k];
  }

  lemma NestedOuter()
    ensures Read(DeepMerge(NestedTarget, NestedSource, NoOptions), Str("key1")) == ObjectMerge(Defaults, NestedInnerTarget, NestedInnerSource, [Str("key1")])
  {
    NestedShapes();
    NestedOuterRead();
    NestedInnerMerge();
  }

  lemma NestedChangedFacts()
    ensures Str("subkey1") in GetKeys(Defaults, NestedInnerSource) && !PropertyIsUnsafe(NestedInnerTarget, Str("subkey1"))
    ensures Read(NestedInnerSource, Str("subkey1")) == Txt("changed")
  {
    NestedInnerEnumeration();
    assert KeysOf(NestedInnerTarget.own) == [Str("subkey1"), Str("subkey2")];
  }

  lemma NestedSubkeyChanged()
    ensures Read(ObjectMerge(Defaults, NestedInnerTarget, NestedInnerSource, [Str("key1")]), Str("subkey1")) == Txt("changed")
  {
    NestedChangedFacts();
    TextNotMergeable(Defaults, "changed");
    ObjectMergeRead(Defaults, NestedInnerTarget, NestedInnerSource, [Str("key1")], Str("subkey1"));
  }

  lemma NestedKeptFacts()
    ensures Str("subkey2") !in GetKeys(Defaults, NestedInnerSource) && Str("subkey2") in GetKeys(Defaults, NestedInnerTarget)
    ensures Read(NestedInnerTarget, Str("subkey2")) == Txt("value2")
  {
    NestedInnerEnumeration();
    IndexOfKeyUnique(KeysOf(NestedInnerTarget.own), Str("subkey2"), 1);
  }

  lemma NestedSubkeyKept()
    ensures Read(ObjectMerge(Defaults, NestedInnerTarget, NestedInnerSource, [Str("key1")]), Str("subkey2")) == Txt("value2")
  {
    NestedKeptFacts();
    TextNotMergeable(Defaults, "value2");
    ObjectMergeKeepsTarget(Defaults, NestedInnerTarget, NestedInnerSource, [Str("key1")], Str("subkey2"));
  }

  lemma NestedAddedFacts()
    ensures Str("subkey3") !in ObjectPrototypeKeys
    ensures Str("subkey3") in GetKeys(Defaults, NestedInnerSource) && !PropertyIsOnObject(NestedInnerTarget, Str("subkey3"))
    ensures Read(NestedInnerSource, Str("subkey3")) == Txt("added")
  {
    NotInherited("subkey3");
    NestedInnerEnumeration();
  }

  lemma NestedSubkeyAdded()
    ensures Read(ObjectMerge(Defaults, NestedInnerTarget, NestedInnerSource, [Str("key1")]), Str("subkey3")) == Txt("added")
  {
    NestedAddedFacts();
    TextNotMergeable(Defaults, "added");
    NewSourceKeyCopied(Defaults, NestedInnerTarget, NestedInnerSource, [Str("key1")], Str("subkey3"));
  }

  /** Enumerating a value that has only string keys, written out. */
  lemma Enumerates(cfg: Config, v: Value, ks: seq<Key>)
    requires v.Obj? && KeysOf(v.own) == ks && forall k :: k in ks ==> k.Str?
    ensures GetKeys(cfg, v) == ks
  {
    assert forall i :: 0 <= i < |v.own| ==> v.own[i].key == ks[i] && ks[i] in ks;
    StringKeyedEnumeration(cfg, v);
  }

  lemma NestedInnerEnumeration()
    ensures GetKeys(Defaults, NestedInnerTarget) == [Str("subkey1"), Str("subkey2")]
    ensures GetKeys(Defaults, NestedInnerSource) == [Str("subkey1"), Str("subkey3")]
  {
    Enumerates(Defaults, NestedInnerTarget, [Str("subkey1"), Str("subkey2")]);
    Enumerates(Defaults, NestedInnerSource, [Str("subkey1"), Str("subkey3")]);
  }

  lemma NestedEnumeration()
    ensures GetKeys(Defaults, NestedTarget) == [Str("key1")]
    ensures GetKeys(Defaults, NestedSource) == [Str("key1")]
  {
    Enumerates(Defaults, NestedTarget, [Str("key1")]);
    Enumerates(Defaults, NestedSource, [Str("key1")]);
  }

  lemma NestedWellFormed()
    ensures WellFormed(NestedInnerTarget) && WellFormed(NestedTarget)
  {
    assert KeysOf(NestedInnerTarget.own) == [Str("subkey1"), Str("subkey2")];
    assert KeysOf(NestedTarget.own) == [Str("key1")];
  }

  lemma NestedNewKeys()
    ensures NewKeys(NestedInnerTarget, [Str("subkey1"), Str("subkey2")], [Str("subkey1"), Str("subkey3")]) == [Str("subkey3")]
    ensures NewKeys(NestedTarget, [Str("key1")], [Str("key1")]) == []
  {
    NotInherited("subkey3");
    assert KeysOf(NestedInnerTarget.own) == [Str("subkey1"), Str("subkey2")];
    assert [Str("subkey1"), Str("subkey3")][1..] == [Str("subkey3")];
  }

  lemma NestedInnerKeys()
    ensures var r := ObjectMerge(Defaults, NestedInnerTarget, NestedInnerSource, [Str("key1")]);
      r.Obj? && KeysOf(r.own) == [Str("subkey1"), Str("subkey2"), Str("subkey3")]
  {
    NestedInnerEnumeration();
    NestedWellFormed();
    NestedNewKeys();
    ObjectMergeKeyList(Defaults, NestedInnerTarget, NestedInnerSource, [Str("key1")],
      [Str("subkey1"), Str("subkey2")], [Str("subkey1"), Str("subkey3")], [Str("subkey3")]);
  }

  lemma NestedOuterKeys()
    ensures var r := DeepMerge(NestedTarget, NestedSource, NoOptions);
      r.Obj? && KeysOf(r.own) == [Str("key1")]
  {
    NestedShapes();
    NestedEnumeration();
    NestedWellFormed();
    NestedNewKeys();
    ObjectMergeKeyList(Defaults, NestedTarget, NestedSource, [], [Str("key1")], [Str("key1")], []);
    assert [Str("key1")] + [] == [Str("key1")];
  }

  /** Nested objects are merged key by key, and neither level gains any other key. */
  lemma NestedExample()
    ensures var m := DeepMerge(NestedTarget, NestedSource, NoOptions);
      m.Obj? && KeysOf(m.own) == [Str("key1")]
    ensures var r := Read(DeepMerge(NestedTarget, NestedSource, NoOptions), Str("key1"));
      && r.Obj? && KeysOf(r.own) == [Str("subkey1"), Str("subkey2"), Str("subkey3")]
      && Read(r, Str("subkey1")) == Txt("changed")
      && Read(r, Str("subkey2")) == Txt("value2")
      && Read(r, Str("subkey3")) == Txt("added")
  {
    NestedOuterKeys();
    NestedInnerKeys();
    NestedOuter();
    NestedSubkeyChanged();
    NestedSubkeyKept();
    NestedSubkeyAdded();
  }

  /** Two arrays are concatenated, target first, without de-duplication. */
  lemma ArrayExample()
    ensures DeepMerge(Arr([Txt("one"), Txt("two")]), Arr([Txt("one"), Txt("three")]), NoOptions)
         == Arr([Txt("one"), Txt("two"), Txt("one"), Txt("three")])
  {
    var t := Arr([Txt("one"), Txt("two")]);
    var s := Arr([Txt("one"), Txt("three")]);
    TextNotMergeable(Defaults, "one");
    TextNotMergeable(Defaults, "two");
    TextNotMergeable(Defaults, "three");
    var r := ArrayMerge(Defaults, t, s, []);
    assert r.elems == [Txt("one"), Txt("two"), Txt("one"), Txt("three")];
  }

  /** A RegExp in the source is taken as it is, the very same object, although cloning is on. */
  lemma RegExpExample()
    ensures Read(DeepMerge(Lit([P("key1", Opaque(RegExp, 1))]), Lit([P("key1", Opaque(RegExp, 2))]),
                           Options(None, None, Some(true), None)), Str("key1"))
         == Opaque(RegExp, 2)
  {
    var t := Lit([P("key1", Opaque(RegExp, 1))]);
    var s := Lit([P("key1", Opaque(RegExp, 2))]);
    var cfg := FromOptions(Options(None, None, Some(true), None));
    assert KeysOf(t.own) == [Str("key1")] && KeysOf(s.own) == [Str("key1")];
    ObjectMergeRead(cfg, t, s, [], Str("key1"));
  }

  /** An own `undefined` in the source overwrites whatever the target held. */
  lemma UndefinedOverwritesExample(before: Value)
    ensures var r := DeepMerge(Lit([P("value", before)]), Lit([P("value", Undefined)]), NoOptions);
      r.Obj? && Str("value") in KeysOf(r.own) && Read(r, Str("value")) == Undefined
  {
    var t := Lit([P("value", before)]);
    var s := Lit([P("value", Undefined)]);
    assert KeysOf(t.own) == [Str("value")] && KeysOf(s.own) == [Str("value")];
    ObjectMergeRead(Defaults, t, s, [], Str("value"));
    ObjectMergeKeys(Defaults, t, s, []);
  }

  /** The hook of the test: `mergeLetters` for paths ending in `letters`, nothing elsewhere. */
  function LettersHook(path: Path): Option<CustomMerge> {
    if |path| > 0 && path[|path| - 1] == Str("letters")
    then Some((a: Value, b: Value, q: Path) => Txt("merged letters"))
    else None
  }

  const Hooked: Options := Options(None, Some(LettersHook), None, None)
  const PeopleTarget: Value := Lit([P("first", Txt("Alex")), P("second", Txt("Bert"))])
  const PeopleSource: Value := Lit([P("first", Txt("Smith")), P("second", Txt("Bertson")), P("third", Txt("Car"))])
  const HookTarget: Value := Lit([P("letters", Arr([Txt("a"), Txt("b")])), P("people", PeopleTarget)])
  const HookSource: Value := Lit([P("letters", Arr([Txt("c")])), P("people", PeopleSource)])

  lemma HookShapes()
    ensures KeysOf(HookTarget.own) == [Str("letters"), Str("people")]
    ensures KeysOf(HookSource.own) == [Str("letters"), Str("people")]
    ensures DeepMerge(HookTarget, HookSource, Hooked) == ObjectMerge(FromOptions(Hooked), HookTarget, HookSource, [])
  {
  }

  lemma LettersCustomMerged()
    ensures Read(DeepMerge(HookTarget, HookSource, Hooked), Str("letters")) == Txt("merged letters")
  {
    var cfg := FromOptions(Hooked);
    HookShapes();
    ObjectMergeRead(cfg, HookTarget, HookSource, [], Str("letters"));
  }

  lemma PeopleKeyFacts()
    ensures Read(HookTarget, Str("people")) == PeopleTarget && Read(HookSource, Str("people")) == PeopleSource
    ensures Str("people") in GetKeys(FromOptions(Hooked), HookSource)
    ensures PropertyIsOnObject(HookTarget, Str("people")) && !PropertyIsUnsafe(HookTarget, Str("people"))
    ensures FromOptions(Hooked).isMergeable(PeopleSource)
  {
    HookShapes();
  }

  lemma PeopleDefaultMerge()
    ensures MergeUnlessCustomSpecified(FromOptions(Hooked), PeopleTarget, PeopleSource, [Str("people")])
         == ObjectMerge(FromOptions(Hooked), PeopleTarget, PeopleSource, [Str("people")])
  {
    var cfg := FromOptions(Hooked);
    assert CustomMergeAt(cfg, [Str("people")]) == None;
    assert cfg.isMergeable(PeopleSource) && cfg.isMergeable(PeopleTarget);
  }

  lemma PeopleMerged()
    ensures Read(DeepMerge(HookTarget, HookSource, Hooked), Str("people")) == ObjectMerge(FromOptions(Hooked), PeopleTarget, PeopleSource, [Str("people")])
  {
    var cfg := FromOptions(Hooked);
    HookShapes();
    PeopleKeyFacts();
    ObjectMergeRead(cfg, HookTarget, HookSource, [], Str("people"));
    assert [] + [Str("people")] == [Str("people")];
    PeopleDefaultMerge();
  }

  lemma PeopleShapes()
    ensures KeysOf(PeopleTarget.own) == [Str("first"), Str("second")]
    ensures KeysOf(PeopleSource.own) == [Str("first"), Str("second"), Str("third")]
    ensures Str("third") !in ObjectPrototypeKeys
    ensures Str("first") in GetKeys(FromOptions(Hooked), PeopleSource) && !PropertyIsUnsafe(PeopleTarget, Str("first"))
    ensures Str("second") in GetKeys(FromOptions(Hooked), PeopleSource) && !PropertyIsUnsafe(PeopleTarget, Str("second"))
    ensures Str("third") in GetKeys(FromOptions(Hooked), PeopleSource) && !PropertyIsOnObject(PeopleTarget, Str("third"))
    ensures Read(PeopleSource, Str("first")) == Txt("Smith")
    ensures Read(PeopleSource, Str("second")) == Txt("Bertson")
    ensures Read(PeopleSource, Str("third")) == Txt("Car")
  {
    NotInherited("third");
  }

  lemma PeopleFirst()
    ensures Read(ObjectMerge(FromOptions(Hooked), PeopleTarget, PeopleSource, [Str("people")]), Str("first")) == Txt("Smith")
  {
    var cfg := FromOptions(Hooked);
    PeopleShapes();
    TextNotMergeable(cfg, "Smith");
    ObjectMergeRead(cfg, PeopleTarget, PeopleSource, [Str("people")], Str("first"));
  }

  lemma PeopleSecond()
    ensures Read(ObjectMerge(FromOptions(Hooked), PeopleTarget, PeopleSource, [Str("people")]), Str("second")) == Txt("Bertson")
  {
    var cfg := FromOptions(Hooked);
    PeopleShapes();
    TextNotMergeable(cfg, "Bertson");
    ObjectMergeRead(cfg, PeopleTarget, PeopleSource, [Str("people")], Str("second"));
  }

  lemma PeopleThird()
    ensures Read(ObjectMerge(FromOptions(Hooked), PeopleTarget, PeopleSource, [Str("people")]), Str("third")) == Txt("Car")
  {
    var cfg := FromOptions(Hooked);
    PeopleShapes();
    TextNotMergeable(cfg, "Car");
    NewSourceKeyCopied(cfg, PeopleTarget, PeopleSource, [Str("people")], Str("third"));
  }

  lemma HookEnumeration()
    ensures GetKeys(FromOptions(Hooked), HookTarget) == [Str("letters"), Str("people")]
    ensures GetKeys(FromOptions(Hooked), HookSource) == [Str("letters"), Str("people")]
  {
    var cfg := FromOptions(Hooked);
    Enumerates(cfg, HookTarget, [Str("letters"), Str("people")]);
    Enumerates(cfg, HookSource, [Str("letters"), Str("people")]);
  }

  lemma PeopleEnumeration()
    ensures GetKeys(FromOptions(Hooked), PeopleTarget) == [Str("first"), Str("second")]
    ensures GetKeys(FromOptions(Hooked), PeopleSource) == [Str("first"), Str("second"), Str("third")]
  {
    var cfg := FromOptions(Hooked);
    Enumerates(cfg, PeopleTarget, [Str("first"), Str("second")]);
    Enumerates(cfg, PeopleSource, [Str("first"), Str("second"), Str("third")]);
  }

  lemma HookWellFormed()
    ensures WellFormed(PeopleTarget) && WellFormed(HookTarget)
  {
    assert KeysOf(PeopleTarget.own) == [Str("first"), Str("second")];
    assert KeysOf(HookTarget.own) == [Str("letters"), Str("people")];
    assert WellFormed(Arr([Txt("a"), Txt("b")]));
  }

  lemma HookNewKeys()
    ensures NewKeys(PeopleTarget, [Str("first"), Str("second")], [Str("first"), Str("second"), Str("third")]) == [Str("third")]
    ensures NewKeys(HookTarget, [Str("letters"), Str("people")], [Str("letters"), Str("people")]) == []
  {
    NotInherited("third");
    assert KeysOf(PeopleTarget.own) == [Str("first"), Str("second")];
    assert [Str("first"), Str("second"), Str("third")][1..] == [Str("second"), Str("third")];
    assert [Str("second"), Str("third")][1..] == [Str("third")];
    assert [Str("letters"), Str("people")][1..] == [Str("people")];
  }

  lemma PeopleKeys()
    ensures var r := ObjectMerge(FromOptions(Hooked), PeopleTarget, PeopleSource, [Str("people")]);
      r.Obj? && KeysOf(r.own) == [Str("first"), Str("second"), Str("third")]
  {
    PeopleEnumeration();
    HookWellFormed();
    HookNewKeys();
    ObjectMergeKeyList(FromOptions(Hooked), PeopleTarget, PeopleSource, [Str("people")],
      [Str("first"), Str("second")], [Str("first"), Str("second"), Str("third")], [Str("third")]);
  }

  lemma HookKeys()
    ensures var r := DeepMerge(HookTarget, HookSource, Hooked);
      r.Obj? && KeysOf(r.own) == [Str("letters"), Str("people")]
  {
    HookShapes();
    HookEnumeration();
    HookWellFormed();
    HookNewKeys();
    ObjectMergeKeyList(FromOptions(Hooked), HookTarget, HookSource, [],
      [Str("letters"), Str("people")], [Str("letters"), Str("people")], []);
    assert [Str("letters"), Str("people")] + [] == [Str("letters"), Str("people")];
  }

  /**
   * A custom merge function chosen by the last path step replaces that
   * subtree's merge; elsewhere merging is as usual, and no other key appears.
   */
  lemma CustomMergeExample()
    ensures var r := DeepMerge(HookTarget, HookSource, Hooked);
      && r.Obj? && KeysOf(r.own) == [Str("letters"), Str("people")]
      && Read(r, Str("people")).Obj?
      && KeysOf(Read(r, Str("people")).own) == [Str("first"), Str("second"), Str("third")]
      && Read(r, Str("letters")) == Txt("merged letters")
      && Read(Read(r, Str("people")), Str("first")) == Txt("Smith")
      && Read(Read(r, Str("people")), Str("second")) == Txt("Bertson")
      && Read(Read(r, Str("people")), Str("third")) == Txt("Car")
  {
    HookKeys();
    PeopleKeys();
    LettersCustomMerged();
    PeopleMerged();
    PeopleFirst();
    PeopleSecond();
    PeopleThird();
  }

  // The test whose hook returns `mergePeople` for paths ending in `people`.

  /** Iteration order of `new Set(ks)` when `seen` is already in the set: first occurrences, in order. */
  function FirstOccurrences(ks: seq<Key>, seen: seq<Key>): seq<Key> {
    if ks == [] then []
    else if ks[0] in seen then FirstOccurrences(ks[1..], seen)
    else [ks[0]] + FirstOccurrences(ks[1..], seen + [ks[0]])
  }

  /** `Object.keys(v)`. */
  function Names(v: Value): seq<Key> {
    if v.Obj? then StringKeys(v.own) else []
  }

  /** The template literal `${a}-${b}` for two strings, the only values the test joins. */
  function Joined(a: Value, b: Value): Value {
    if a.Prim? && a.p.Text? && b.Prim? && b.p.Text? then Txt(a.p.s + "-" + b.p.s) else Undefined
  }

  /** The value `mergePeople` assigns at `k`. */
  function PeopleEntry(a: Value, b: Value, k: Key): Value {
    if PropertyIsOnObject(a, k) && PropertyIsOnObject(b, k) then Joined(Read(a, k), Read(b, k))
    else if PropertyIsOnObject(a, k) then Read(a, k)
    else Read(b, k)
  }

  /** The `keys.forEach` loop of `mergePeople`, writing into `dest`. */
  function FillPeople(a: Value, b: Value, keys: seq<Key>, dest: Value): Value
    decreases |keys|
  {
    if keys == [] then dest
    else FillPeople(a, b, keys[1..], SetKey(dest, keys[0], PeopleEntry(a, b, keys[0])))
  }

  /** `mergePeople(target, source)`: the union of both key lists, joining the values of shared keys. */
  function MergePeople(a: Value, b: Value, q: Path): Value {
    FillPeople(a, b, FirstOccurrences(Names(a) + Names(b), []), Lit([]))
  }

  function PeopleHook(path: Path): Option<CustomMerge> {
    if |path| > 0 && path[|path| - 1] == Str("people") then Some(MergePeople) else None
  }

  const PeopleHooked: Options := Options(None, Some(PeopleHook), None, None)
  const JoinedPeople: Value := Lit([P("first", Txt("Alex-Smith")), P("second", Txt("Bert-Bertson")), P("third", Txt("Car"))])

  lemma PeopleNames()
    ensures Names(PeopleTarget) == [Str("first"), Str("second")]
    ensures Names(PeopleSource) == [Str("first"), Str("second"), Str("third")]
  {
    var cfg := Defaults.(includeSymbol := false);
    Enumerates(cfg, PeopleTarget, [Str("first"), Str("second")]);
    Enumerates(cfg, PeopleSource, [Str("first"), Str("second"), Str("third")]);
  }

  lemma NamesUnion()
    ensures FirstOccurrences([Str("first"), Str("second"), Str("first"), Str("second"), Str("third")], [])
         == [Str("first"), Str("second"), Str("third")]
  {
    var ks := [Str("first"), Str("second"), Str("first"), Str("second"), Str("third")];
    var f, s := Str("first"), Str("second");
    assert ks[4..][1..] == [];
    assert FirstOccurrences(ks[4..], [f, s]) == [Str("third")];
    assert FirstOccurrences(ks[3..], [f, s]) == [Str("third")] by { assert ks[3..][1..] == ks[4..]; }
    assert FirstOccurrences(ks[2..], [f, s]) == [Str("third")] by { assert ks[2..][1..] == ks[3..]; }
    assert FirstOccurrences(ks[1..], [f]) == [s, Str("third")] by { assert ks[1..][1..] == ks[2..]; assert [f] + [s] == [f, s]; }
    assert [] + [f] == [f];
  }

  lemma PeopleUnion()
    ensures FirstOccurrences(Names(PeopleTarget) + Names(PeopleSource), [])
         == [Str("first"), Str("second"), Str("third")]
  {
    PeopleNames();
    assert Names(PeopleTarget) + Names(PeopleSource) == [Str("first"), Str("second"), Str("first"), Str("second"), Str("third")];
    NamesUnion();
  }

  lemma PeopleEntryFirst()
    ensures PeopleEntry(PeopleTarget, PeopleSource, Str("first")) == Txt("Alex-Smith")
  {
    assert KeysOf(PeopleTarget.own) == [Str("first"), Str("second")];
    assert KeysOf(PeopleSource.own) == [Str("first"), Str("second"), Str("third")];
    assert "Alex" + "-" + "Smith" == "Alex-Smith";
  }

  lemma PeopleEntrySecond()
    ensures PeopleEntry(PeopleTarget, PeopleSource, Str("second")) == Txt("Bert-Bertson")
  {
    assert KeysOf(PeopleTarget.own) == [Str("first"), Str("second")];
    assert KeysOf(PeopleSource.own) == [Str("first"), Str("second"), Str("third")];
    assert "Bert" + "-" + "Bertson" == "Bert-Bertson";
  }

  lemma PeopleEntryThird()
    ensures PeopleEntry(PeopleTarget, PeopleSource, Str("third")) == Txt("Car")
  {
    NotInherited("third");
    assert KeysOf(PeopleTarget.own) == [Str("first"), Str("second")];
    assert KeysOf(PeopleSource.own) == [Str("first"), Str("second"), Str("third")];
  }

  /** Assigning a key an object does not have appends it. */
  lemma AddedAtEnd(own: seq<Prop<Value>>, k: Key, x: Value)
    requires k !in KeysOf(own)
    ensures SetKey(Lit(own), k, x) == Lit(own + [Prop(k, x)])
  {
    var r := SetProp(own, k, x);
    assert forall i :: 0 <= i < |own| ==> own[i].key != k by {
      forall i | 0 <= i < |own| ensures own[i].key != k {
        assert KeysOf(own)[i] == own[i].key;
      }
    }
    assert r == own + [Prop(k, x)];
  }

  /** One turn of the `forEach` loop assigns a key the object does not have yet. */
  lemma FillStep(a: Value, b: Value, k: Key, rest: seq<Key>, own: seq<Prop<Value>>)
    requires k !in KeysOf(own)
    ensures FillPeople(a, b, [k] + rest, Lit(own)) == FillPeople(a, b, rest, Lit(own + [Prop(k, PeopleEntry(a, b, k))]))
  {
    assert ([k] + rest)[1..] == rest;
    AddedAtEnd(own, k, PeopleEntry(a, b, k));
  }

  lemma PeopleFillTail(a: Value, b: Value, o1: seq<Prop<Value>>)
    requires o1 == [Prop(Str("first"), PeopleEntry(a, b, Str("first")))]
    ensures FillPeople(a, b, [Str("second"), Str("third")], Lit(o1))
         == Lit(o1 + [Prop(Str("second"), PeopleEntry(a, b, Str("second"))),
                      Prop(Str("third"), PeopleEntry(a, b, Str("third")))])
  {
    var f, s, t := Str("first"), Str("second"), Str("third");
    var o2 := o1 + [Prop(s, PeopleEntry(a, b, s))];
    assert KeysOf(o1) == [f];
    FillStep(a, b, s, [t], o1);
    assert [s] + [t] == [s, t];
    assert KeysOf(o2) == [f, s];
    FillStep(a, b, t, [], o2);
    assert [t] + [] == [t];
    assert o2 + [Prop(t, PeopleEntry(a, b, t))] == o1 + [Prop(s, PeopleEntry(a, b, s)), Prop(t, PeopleEntry(a, b, t))];
  }

  lemma PeopleFillOrder(a: Value, b: Value)
    ensures FillPeople(a, b, [Str("first"), Str("second"), Str("third")], Lit([]))
         == Lit([Prop(Str("first"), PeopleEntry(a, b, Str("first"))),
                 Prop(Str("second"), PeopleEntry(a, b, Str("second"))),
                 Prop(Str("third"), PeopleEntry(a, b, Str("third")))])
  {
    var f, s, t := Str("first"), Str("second"), Str("third");
    var o1 := [Prop(f, PeopleEntry(a, b, f))];
    FillStep(a, b, f, [s, t], []);
    assert [f] + [s, t] == [f, s, t] && [] + o1 == o1;
    PeopleFillTail(a, b, o1);
  }

  lemma PeopleFilled()
    ensures FillPeople(PeopleTarget, PeopleSource, [Str("first"), Str("second"), Str("third")], Lit([])) == JoinedPeople
  {
    PeopleFillOrder(PeopleTarget, PeopleSource);
    PeopleEntryFirst();
    PeopleEntrySecond();
    PeopleEntryThird();
  }

  lemma PeopleHookShapes()
    ensures DeepMerge(HookTarget, HookSource, PeopleHooked) == ObjectMerge(FromOptions(PeopleHooked), HookTarget, HookSource, [])
    ensures GetKeys(FromOptions(PeopleHooked), HookTarget) == [Str("letters"), Str("people")]
    ensures GetKeys(FromOptions(PeopleHooked), HookSource) == [Str("letters"), Str("people")]
  {
    var cfg := FromOptions(PeopleHooked);
    Enumerates(cfg, HookTarget, [Str("letters"), Str("people")]);
    Enumerates(cfg, HookSource, [Str("letters"), Str("people")]);
  }

  lemma PeopleJoined()
    ensures Read(DeepMerge(HookTarget, HookSource, PeopleHooked), Str("people")) == JoinedPeople
  {
    var cfg := FromOptions(PeopleHooked);
    PeopleHookShapes();
    PeopleKeyFacts();
    assert [] + [Str("people")] == [Str("people")];
    HookedKeyMerged(cfg, HookTarget, HookSource, [], Str("people"), MergePeople);
    PeopleUnion();
    PeopleFilled();
  }

  lemma LettersArray(cfg: Config)
    requires cfg.isMergeable == IsMergeableObject
    ensures ArrayMerge(cfg, Arr([Txt("a"), Txt("b")]), Arr([Txt("c")]), [Str("letters")]) == Arr([Txt("a"), Txt("b"), Txt("c")])
  {
    TextNotMergeable(cfg, "a");
    TextNotMergeable(cfg, "b");
    TextNotMergeable(cfg, "c");
    var r := ArrayMerge(cfg, Arr([Txt("a"), Txt("b")]), Arr([Txt("c")]), [Str("letters")]);
    assert r.elems[0] == Txt("a") && r.elems[1] == Txt("b") && r.elems[2] == Txt("c");
  }

  lemma LettersRead()
    ensures Read(DeepMerge(HookTarget, HookSource, PeopleHooked), Str("letters"))
         == ArrayMerge(FromOptions(PeopleHooked), Arr([Txt("a"), Txt("b")]), Arr([Txt("c")]), [Str("letters")])
  {
    var cfg := FromOptions(PeopleHooked);
    PeopleHookShapes();
    assert Read(HookTarget, Str("letters")) == Arr([Txt("a"), Txt("b")]);
    assert Read(HookSource, Str("letters")) == Arr([Txt("c")]);
    ObjectMergeRead(cfg, HookTarget, HookSource, [], Str("letters"));
    assert [] + [Str("letters")] == [Str("letters")];
    assert CustomMergeAt(cfg, [Str("letters")]) == None;
  }

  lemma LettersConcatenated()
    ensures Read(DeepMerge(HookTarget, HookSource, PeopleHooked), Str("letters")) == Arr([Txt("a"), Txt("b"), Txt("c")])
  {
    LettersRead();
    LettersArray(FromOptions(PeopleHooked));
  }

  lemma PeopleHookKeys()
    ensures var r := DeepMerge(HookTarget, HookSource, PeopleHooked);
      r.Obj? && KeysOf(r.own) == [Str("letters"), Str("people")]
  {
    PeopleHookShapes();
    HookWellFormed();
    HookNewKeys();
    ObjectMergeKeyList(FromOptions(PeopleHooked), HookTarget, HookSource, [],
      [Str("letters"), Str("people")], [Str("letters"), Str("people")], []);
    assert [Str("letters"), Str("people")] + [] == [Str("letters"), Str("people")];
  }

  /**
   * The hook's function receives the target's `people` before the source's:
   * shared names join as `target-source`, and `letters` is merged as usual.
   */
  lemma MergePeopleExample()
    ensures var r := DeepMerge(HookTarget, HookSource, PeopleHooked);
      && r.Obj? && KeysOf(r.own) == [Str("letters"), Str("people")]
      && Read(r, Str("letters")) == Arr([Txt("a"), Txt("b"), Txt("c")])
      && Read(r, Str("people")) == Lit([P("first", Txt("Alex-Smith")), P("second", Txt("Bert-Bertson")), P("third", Txt("Car"))])
  {
    PeopleHookKeys();
    LettersConcatenated();
    PeopleJoined();
  }

  /**
   * With a classifier that calls everything mergeable, `false` on both sides
   * goes down the recursive branch, so the custom function is consulted.
   */
  lemma FalseyIsMergeableExample(unique: Value)
    ensures var everything := (v: Value) => true;
      var lookup := (path: Path) => Some((a: Value, b: Value, q: Path) => unique);
      var r := DeepMerge(Lit([P("wat", Prim(Bool(false)))]), Lit([P("wat", Prim(Bool(false)))]),
                         Options(Some(everything), Some(lookup), None, None));
      Read(r, Str("wat")) == unique
  {
    var everything := (v: Value) => true;
    var lookup := (path: Path) => Some((a: Value, b: Value, q: Path) => unique);
    var cfg := FromOptions(Options(Some(everything), Some(lookup), None, None));
    var t := Lit([P("wat", Prim(Bool(false)))]);
    assert KeysOf(t.own) == [Str("wat")];
    ObjectMergeRead(cfg, t, t, [], Str("wat"));
  }

  const SymbolSource: Value := Lit([Prop(Sym(7), Txt("value1"))])

  lemma SymbolEnumeration()
    ensures KeysOf(SymbolSource.own) == [Sym(7)]
    ensures GetKeys(Defaults, SymbolSource) == [Sym(7)]
    ensures GetKeys(Defaults, Lit([])) == []
    ensures CloneUnlessOtherwiseSpecified(Defaults, Lit([])) == Obj([], ObjectPrototypeKeys)
  {
    var ks := KeysOf(SymbolSource.own);
    assert ks == [Sym(7)];
    assert OfKind(ks, true) == [];
    assert OfKind(ks, false) == [Sym(7)] + OfKind([], false);
    assert CloneProps(Defaults, Lit([]), [], []) == [];
  }

  lemma SymbolEntry()
    ensures !PropertyIsUnsafe(Lit([]), Sym(7))
    ensures Entry(Defaults, Lit([]), SymbolSource, [], Sym(7)) == Txt("value1")
  {
    SymbolEnumeration();
    TextNotMergeable(Defaults, "value1");
    assert IndexOf(SymbolSource.own, Sym(7)) == Some(0);
  }

  /** By default the symbol-keyed entry lands in a fresh copy of the empty target. */
  lemma SymbolKeyMerged()
    ensures DeepMerge(Lit([]), SymbolSource, NoOptions) == Obj([Prop(Sym(7), Txt("value1"))], ObjectPrototypeKeys)
  {
    var t := Lit([]);
    var s := SymbolSource;
    var dest := Obj([], ObjectPrototypeKeys);
    SymbolEnumeration();
    SymbolEntry();
    assert SetKey(dest, Sym(7), Txt("value1")) == Obj([Prop(Sym(7), Txt("value1"))], ObjectPrototypeKeys);
    assert ObjectMerge(Defaults, t, s, []) == Overlay(Defaults, t, s, [], SetKey(dest, Sym(7), Txt("value1")), []);
  }

  /** Symbol keys are copied by default and ignored when `includeSymbol` is false. */
  lemma SymbolKeyExample()
    ensures var r := DeepMerge(Lit([]), SymbolSource, NoOptions);
      && Read(r, Sym(7)) == Txt("value1")
      && r.Obj? && SymbolKeys(r.own) == SymbolKeys(SymbolSource.own) == [Sym(7)]
    ensures var r := DeepMerge(Lit([]), SymbolSource, Options(None, None, None, Some(false)));
      r.Obj? && Sym(7) !in KeysOf(r.own)
  {
    var t := Lit([]);
    var s := SymbolSource;
    SymbolEnumeration();
    SymbolKeyMerged();
    assert KeysOf([Prop(Sym(7), Txt("value1"))]) == [Sym(7)];
    var cfg := FromOptions(Options(None, None, None, Some(false)));
    ObjectMergeKeys(cfg, t, s, []);
    DeepCloneShape(cfg, t);
  }

  /** A parsed `{"__proto__": ...}` cannot plant an own `__proto__` (or reach the prototype) through merging. */
  lemma PrototypePollutionExample(payload: Value)
    ensures var r := DeepMerge(Lit([]), Lit([P("__proto__", payload)]), NoOptions);
      r.Obj? && Str("__proto__") !in KeysOf(r.own)
  {
    var t := Lit([]);
    assert PropertyIsUnsafe(t, Str("__proto__"));
    UnsafeKeyNeverAssigned(Defaults, t, Lit([P("__proto__", payload)]), [], Str("__proto__"));
  }

  // ---------------------------------------------------------------------
  // Cloning with identities
  // ---------------------------------------------------------------------

  /** `const o = {}; o.self = o;` */
  const SelfLoop: Store := map[0 := HObj([Prop(Str("self"), Ptr(0))], ObjectPrototypeKeys)]

  lemma SelfLoopStep()
    ensures HeapClone(Defaults, SelfLoop, Ptr(0), [])
         == Obj(HeapCloneProps(Defaults, SelfLoop, SelfLoop[0].own, [Str("self")], [0], []), ObjectPrototypeKeys)
  {
    var own := SelfLoop[0].own;
    assert KeysOf(own) == [Str("self")];
    assert EnumerableKeys(own, true) == [Str("self")];
    assert [] + [0] == [0];
  }

  /** A self-referencing object clones with the cyclic branch cut to `undefined`. */
  lemma CycleExample()
    ensures HeapClone(Defaults, SelfLoop, Ptr(0), []) == Lit([P("self", Undefined)])
  {
    SelfLoopStep();
    var own := SelfLoop[0].own;
    assert KeysOf(own) == [Str("self")];
    assert HeapClone(Defaults, SelfLoop, Ptr(0), [0]) == Undefined;
    assert HeapCloneProps(Defaults, SelfLoop, own, [Str("self")], [0], [])
        == HeapCloneProps(Defaults, SelfLoop, own, [], [0], [P("self", Undefined)]);
  }

  /** `const a = {n: 1}; [a, a]` */
  const Shared: Store := map[0 := HArr([Ptr(1), Ptr(1)]), 1 := HObj([Prop(Str("n"), Leaf(Prim(Num(1))))], {})]

  lemma SharedChild()
    ensures HeapClone(Defaults, Shared, Ptr(1), [0]) == Lit([P("n", Prim(Num(1)))])
  {
    var own := Shared[1].own;
    assert KeysOf(own) == [Str("n")];
    assert EnumerableKeys(own, true) == [Str("n")];
    assert [0] + [1] == [0, 1];
    assert HeapClone(Defaults, Shared, Ptr(1), [0])
        == Obj(HeapCloneProps(Defaults, Shared, own, [Str("n")], [0, 1], []), ObjectPrototypeKeys);
    assert HeapClone(Defaults, Shared, Leaf(Prim(Num(1))), [0, 1]) == Prim(Num(1));
    assert HeapCloneProps(Defaults, Shared, own, [Str("n")], [0, 1], [])
        == HeapCloneProps(Defaults, Shared, own, [], [0, 1], [P("n", Prim(Num(1)))]);
  }

  /** A container shared by two siblings is not a cycle: both occurrences are cloned in full. */
  lemma SharedExample()
    ensures HeapClone(Defaults, Shared, Ptr(0), []) == Arr([Lit([P("n", Prim(Num(1)))]), Lit([P("n", Prim(Num(1)))])])
  {
    SharedChild();
    assert [] + [0] == [0];
    var r := HeapClone(Defaults, Shared, Ptr(0), []);
    assert |r.elems| == 2;
    assert r.elems[0] == HeapClone(Defaults, Shared, Ptr(1), [0]);
    assert r.elems[1] == HeapClone(Defaults, Shared, Ptr(1), [0]);
  }
}

=== FILE: heap.dfy ===
/**
 * deepClone over a store of identity-bearing arrays and objects, where
 * sharing and cycles can be expressed. The ancestor stack holds store
 * identities; a reference already on it clones to `undefined`.
 */
module Heap {
  import opened Wrappers
  import opened Values
  import opened Engine
  import opened CloneFacts

  type Id = nat

  /** A slot: either a value without identity of its own, or a reference into the store. */
  datatype Ref = Leaf(v: Value) | Ptr(id: Id)

  /** An array or a plain object held in the store (classified mergeable, as by the default classifier). */
  datatype Node = HArr(elems: seq<Ref>) | HObj(own: seq<Prop<Ref>>, hidden: set<Key>)

  type Store = map<Id, Node>

  predicate RefIn(store: Store, r: Ref) {
    r.Ptr? ==> r.id in store
  }

  predicate NodeIn(store: Store, n: Node) {
    match n
    case HArr(es) => forall i :: 0 <= i < |es| ==> RefIn(store, es[i])
    case HObj(own, _) => forall i :: 0 <= i < |own| ==> RefIn(store, own[i].val)
  }

  /** No dangling references. */
  predicate Closed(store: Store) {
    forall id :: id in store ==> NodeIn(store, store[id])
  }

  function Visited(stack: seq<Id>): set<Id> {
    set j | j in stack
  }

  lemma VisitOneMore(store: Store, stack: seq<Id>, id: Id)
    requires id in store && id !in stack
    ensures |store.Keys - Visited(stack + [id])| < |store.Keys - Visited(stack)|
  {
    assert Visited(stack + [id]) == Visited(stack) + {id};
    assert store.Keys - Visited(stack + [id]) == (store.Keys - Visited(stack)) - {id};
  }

  /** `deepClone(x, stack)`: `stack` lists the identities of the containers being cloned above `x`. */
  function HeapClone(cfg: Config, store: Store, x: Ref, stack: seq<Id>): Value
    requires Closed(store) && RefIn(store, x)
    decreases |store.Keys - Visited(stack)|, 0
  {
    match x
    case Leaf(v) => DeepClone(cfg, v)
    case Ptr(id) =>
      if id in stack then Undefined
      else
        VisitOneMore(store, stack, id);
        match store[id]
        case HArr(es) =>
          Arr(seq(|es|, i requires 0 <= i < |es| => HeapClone(cfg, store, es[i], stack + [id])))
        case HObj(own, _) =>
          Obj(HeapCloneProps(cfg, store, own, EnumerableKeys(own, cfg.includeSymbol), stack + [id], []),
              ObjectPrototypeKeys)
  }

  /** The cloning loop over an object node's keys; every child gets its own copy of `stack`. */
  function HeapCloneProps(cfg: Config, store: Store, own: seq<Prop<Ref>>, keys: seq<Key>, stack: seq<Id>,
                          acc: seq<Prop<Value>>): seq<Prop<Value>>
    requires Closed(store) && forall i :: 0 <= i < |own| ==> RefIn(store, own[i].val)
    decreases |store.Keys - Visited(stack)|, 1, |keys|
  {
    if keys == [] then acc
    else
      var x :=
        match IndexOf(own, keys[0])
        case Some(i) => HeapClone(cfg, store, own[i].val, stack)
        // Not reached: the keys are the node's own keys.
        case None => Undefined;
      HeapCloneProps(cfg, store, own, keys[1..], stack, SetProp(acc, keys[0], x))
  }

  // ---------------------------------------------------------------------
  // Acyclic stores: the clone is the tree clone of what the reference denotes
  // ---------------------------------------------------------------------

  function RankOf(rank: map<Id, nat>, x: Ref): nat {
    if x.Ptr? && x.id in rank then rank[x.id] + 1 else 0
  }

  predicate ChildrenBelow(rank: map<Id, nat>, n: Node, bound: nat) {
    match n
    case HArr(es) => forall i :: 0 <= i < |es| ==> RankOf(rank, es[i]) < bound
    case HObj(own, _) => forall i :: 0 <= i < |own| ==> RankOf(rank, own[i].val) < bound
  }

  /** `rank` witnesses that the store has no cycles: every reference points strictly down. */
  predicate Ranked(store: Store, rank: map<Id, nat>) {
    && store.Keys <= rank.Keys
    && forall id :: id in store ==> ChildrenBelow(rank, store[id], rank[id] + 1)
  }

  /** The tree a reference denotes in an acyclic store (shared nodes are copied at each occurrence). */
  function Unfold(store: Store, rank: map<Id, nat>, x: Ref): Value
    requires Closed(store) && Ranked(store, rank) && RefIn(store, x)
    decreases RankOf(rank, x)
  {
    match x
    case Leaf(v) => v
    case Ptr(id) =>
      match store[id]
      case HArr(es) => Arr(seq(|es|, i requires 0 <= i < |es| => Unfold(store, rank, es[i])))
      case HObj(own, h) => Obj(UnfoldProps(store, rank, own, rank[id] + 1), h)
  }

  function UnfoldProps(store: Store, rank: map<Id, nat>, own: seq<Prop<Ref>>, bound: nat): (r: seq<Prop<Value>>)
    requires Closed(store) && Ranked(store, rank)
    requires forall i :: 0 <= i < |own| ==> RefIn(store, own[i].val) && RankOf(rank, own[i].val) < bound
    ensures |r| == |own|
    ensures forall i :: 0 <= i < |own| ==> r[i] == Prop(own[i].key, Unfold(store, rank, own[i].val))
    decreases bound, 0
  {
    seq(|own|, i requires 0 <= i < |own| => Prop(own[i].key, Unfold(store, rank, own[i].val)))
  }

  /** An ancestor stack for `x`: every identity on it ranks above `x`, so `x` cannot be on it. */
  predicate StackAbove(rank: map<Id, nat>, stack: seq<Id>, x: Ref) {
    forall j :: j in stack ==> j in rank && RankOf(rank, x) <= rank[j]
  }

  lemma {:induction false} HeapClonePropsAcyclic(cfg: Config, store: Store, rank: map<Id, nat>, id: Id,
                                                 keys: seq<Key>, stack: seq<Id>, acc: seq<Prop<Value>>)
    requires cfg.isMergeable == IsMergeableObject
    requires Closed(store) && Ranked(store, rank) && id in store && store[id].HObj?
    requires forall j :: j in stack ==> j in rank && rank[id] <= rank[j]
    ensures var own := store[id].own;
      HeapCloneProps(cfg, store, own, keys, stack, acc)
        == CloneProps(cfg, Unfold(store, rank, Ptr(id)), keys, acc)
    decreases rank[id] + 1, 0, |keys|
  {
    var own := store[id].own;
    var u := Unfold(store, rank, Ptr(id));
    var uown := UnfoldProps(store, rank, own, rank[id] + 1);
    assert u.own == uown;
    assert KeysOf(uown) == KeysOf(own);
    if keys != [] {
      var k := keys[0];
      match IndexOf(own, k)
      case Some(i) =>
        var child := own[i].val;
        assert RankOf(rank, child) < rank[id] + 1;
        HeapCloneAcyclic(cfg, store, rank, child, stack);
        var x := HeapClone(cfg, store, child, stack);
        assert x == DeepClone(cfg, uown[i].val);
        HeapClonePropsAcyclic(cfg, store, rank, id, keys[1..], stack, SetProp(acc, k, x));
      case None =>
        HeapClonePropsAcyclic(cfg, store, rank, id, keys[1..], stack, SetProp(acc, k, Undefined));
    }
  }

  /**
   * On an acyclic store the cycle guard never fires: cloning a reference
   * gives the tree clone of the value it denotes. A container shared by
   * several parents is therefore cloned in full at every occurrence.
   */
  lemma {:induction false} HeapCloneAcyclic(cfg: Config, store: Store, rank: map<Id, nat>, x: Ref, stack: seq<Id>)
    requires cfg.isMergeable == IsMergeableObject
    requires Closed(store) && Ranked(store, rank) && RefIn(store, x)
    requires StackAbove(rank, stack, x)
    ensures HeapClone(cfg, store, x, stack) == DeepClone(cfg, Unfold(store, rank, x))
    decreases RankOf(rank, x), 1
  {
    match x
    case Leaf(v) =>
    case Ptr(id) =>
      assert id !in stack;
      var stack' := stack + [id];
      match store[id]
      case HArr(es) =>
        var u := Unfold(store, rank, x);
        forall i | 0 <= i < |es|
          ensures HeapClone(cfg, store, es[i], stack') == DeepClone(cfg, u.elems[i])
        {
          assert RankOf(rank, es[i]) < rank[id] + 1;
          HeapCloneAcyclic(cfg, store, rank, es[i], stack');
        }
        DeepCloneShape(cfg, u);
        assert HeapClone(cfg, store, x, stack).elems == DeepClone(cfg, u).elems;
      case HObj(own, h) =>
        var u := Unfold(store, rank, x);
        assert KeysOf(u.own) == KeysOf(own);
        assert GetKeys(cfg, u) == EnumerableKeys(own, cfg.includeSymbol);
        HeapClonePropsAcyclic(cfg, store, rank, id, GetKeys(cfg, u), stack', []);
  }
}

=== FILE: merge_facts.dfy ===
/** Properties of merge, the default strategies and the custom-merge hook. */
module MergeFacts {
  import opened Wrappers
  import opened Values
  import opened Engine
  import opened CloneFacts

  // ---------------------------------------------------------------------
  // Dispatch
  // ---------------------------------------------------------------------

  /** Whether merge combines the target with the source, by the array or the object strategy. */
  predicate Combines(cfg: Config, t: Value, s: Value) {
    if s.Arr? then t.Arr?
    else cfg.isMergeable(s) && !t.Arr? && cfg.isMergeable(t)
  }

  /**
   * A target the source cannot be combined with is replaced, not consulted:
   * any two such targets give the same result, the source's (optional)
   * clone when the source is an array or mergeable, the source itself
   * otherwise.
   */
  lemma ReplacedTargetIgnored(cfg: Config, t1: Value, t2: Value, s: Value, p: Path)
    requires !Combines(cfg, t1, s) && !Combines(cfg, t2, s)
    ensures Merge(cfg, t1, s, p) == Merge(cfg, t2, s, p)
    ensures s.Arr? || cfg.isMergeable(s) ==> Merge(cfg, t1, s, p) == CloneUnlessOtherwiseSpecified(cfg, s)
    ensures !s.Arr? && !cfg.isMergeable(s) ==> Merge(cfg, t1, s, p) == s
  {
  }

  /**
   * A source value that is neither an array nor mergeable is returned as it
   * is, whatever the target and whether or not cloning is on.
   */
  lemma VerbatimSourceIgnoresClone(cfg: Config, t: Value, s: Value, p: Path, clone: bool)
    requires !s.Arr? && !cfg.isMergeable(s)
    ensures Merge(cfg, t, s, p) == Merge(cfg.(clone := clone), t, s, p) == s
  {
  }

  /** Dates, RegExps and primitives in the source win as they are, even when cloning is on. */
  lemma OpaqueSourceWins(cfg: Config, t: Value, s: Value, p: Path)
    requires cfg.isMergeable == IsMergeableObject
    requires !s.Arr? && !s.Obj?
    ensures Merge(cfg, t, s, p) == s
  {
  }

  // ---------------------------------------------------------------------
  // The default array strategy
  // ---------------------------------------------------------------------

  /** Without cloning the array strategy is plain concatenation: nothing is dropped or de-duplicated. */
  lemma ArrayMergeConcatenates(cfg: Config, t: Value, s: Value, p: Path)
    requires t.Arr? && s.Arr? && !cfg.clone
    ensures ArrayMerge(cfg, t, s, p) == Arr(t.elems + s.elems)
    ensures multiset(ArrayMerge(cfg, t, s, p).elems) == multiset(t.elems) + multiset(s.elems)
  {
    assert ArrayMerge(cfg, t, s, p).elems == t.elems + s.elems;
  }

  /** With cloning, the result holds a clone of every element of both arrays, target first. */
  lemma ArrayMergeClones(cfg: Config, t: Value, s: Value, p: Path)
    requires t.Arr? && s.Arr? && cfg.clone
    ensures ArrayMerge(cfg, t, s, p) == DeepClone(cfg, Arr(t.elems + s.elems))
  {
    var r := ArrayMerge(cfg, t, s, p);
    var c := DeepClone(cfg, Arr(t.elems + s.elems));
    DeepCloneShape(cfg, Arr(t.elems + s.elems));
    assert r.elems == c.elems;
  }

  // ---------------------------------------------------------------------
  // The default object strategy
  // ---------------------------------------------------------------------

  lemma {:induction false} OverlayRead(cfg: Config, t: Value, s: Value, p: Path, dest: Value, keys: seq<Key>, k: Key)
    requires dest.Obj?
    ensures Read(Overlay(cfg, t, s, p, dest, keys), k)
      == if k in keys && !PropertyIsUnsafe(t, k) then Entry(cfg, t, s, p, k) else Read(dest, k)
    decreases |keys|
  {
    if keys != [] {
      var k0 := keys[0];
      var dest' := if PropertyIsUnsafe(t, k0) then dest else SetKey(dest, k0, Entry(cfg, t, s, p, k0));
      assert Overlay(cfg, t, s, p, dest, keys) == Overlay(cfg, t, s, p, dest', keys[1..]);
      OverlayRead(cfg, t, s, p, dest', keys[1..], k);
      if !PropertyIsUnsafe(t, k0) {
        ReadSetKey(dest, k0, Entry(cfg, t, s, p, k0), k);
      }
      assert k in keys <==> k == k0 || k in keys[1..];
    }
  }

  /**
   * The object strategy, key by key: a safe source key that is on the target
   * and whose source value is mergeable gets the recursive merge (through the
   * custom hook, one path step deeper); any other safe source key gets the
   * (cloned) source value, be it undefined or false; every other key reads
   * as in the (cloned) target.
   */
  lemma ObjectMergeRead(cfg: Config, t: Value, s: Value, p: Path, k: Key)
    requires t.Obj? && cfg.isMergeable(t)
    ensures var r := ObjectMerge(cfg, t, s, p);
      && (k in GetKeys(cfg, s) && !PropertyIsUnsafe(t, k) && PropertyIsOnObject(t, k) && cfg.isMergeable(Read(s, k)) ==>
            Read(r, k) == MergeUnlessCustomSpecified(cfg, Read(t, k), Read(s, k), p + [k]))
      && (k in GetKeys(cfg, s) && !PropertyIsUnsafe(t, k) && !(PropertyIsOnObject(t, k) && cfg.isMergeable(Read(s, k))) ==>
            Read(r, k) == CloneUnlessOtherwiseSpecified(cfg, Read(s, k)))
      && (k !in GetKeys(cfg, s) || PropertyIsUnsafe(t, k) ==>
            Read(r, k) == Read(CloneUnlessOtherwiseSpecified(cfg, t), k))
  {
    var dest := CloneUnlessOtherwiseSpecified(cfg, t);
    OverlayRead(cfg, t, s, p, dest, GetKeys(cfg, s), k);
  }

  /** Target keys the source does not touch keep their (cloned) target value. */
  lemma ObjectMergeKeepsTarget(cfg: Config, t: Value, s: Value, p: Path, k: Key)
    requires t.Obj? && cfg.isMergeable(t)
    requires k !in GetKeys(cfg, s) || PropertyIsUnsafe(t, k)
    requires !cfg.clone || k in GetKeys(cfg, t)
    ensures Read(ObjectMerge(cfg, t, s, p), k) == CloneUnlessOtherwiseSpecified(cfg, Read(t, k))
  {
    ObjectMergeRead(cfg, t, s, p, k);
    DeepCloneShape(cfg, t);
  }

  /** A source key the target lacks is never unsafe, so it is always copied over. */
  lemma NewSourceKeyCopied(cfg: Config, t: Value, s: Value, p: Path, k: Key)
    requires t.Obj? && cfg.isMergeable(t)
    requires k in GetKeys(cfg, s) && !PropertyIsOnObject(t, k)
    ensures !PropertyIsUnsafe(t, k)
    ensures Read(ObjectMerge(cfg, t, s, p), k) == CloneUnlessOtherwiseSpecified(cfg, Read(s, k))
  {
    ObjectMergeRead(cfg, t, s, p, k);
  }

  /**
   * The keys of `keys`, in their order, that a loop assigning them one by one
   * appends to an object whose keys are `present`: those safe on `t` and not
   * present by the time they come up.
   */
  function NewKeys(t: Value, present: seq<Key>, keys: seq<Key>): seq<Key>
    decreases |keys|
  {
    if keys == [] then []
    else if PropertyIsUnsafe(t, keys[0]) || keys[0] in present then NewKeys(t, present, keys[1..])
    else [keys[0]] + NewKeys(t, present + [keys[0]], keys[1..])
  }

  /** The appended keys are exactly the safe keys not already present. */
  lemma {:induction false} NewKeysMembers(t: Value, present: seq<Key>, keys: seq<Key>)
    ensures forall k :: k in NewKeys(t, present, keys) <==> k in keys && !PropertyIsUnsafe(t, k) && k !in present
    decreases |keys|
  {
    if keys != [] {
      var k0 := keys[0];
      assert forall k :: k in keys <==> k == k0 || k in keys[1..];
      if PropertyIsUnsafe(t, k0) || k0 in present {
        NewKeysMembers(t, present, keys[1..]);
      } else {
        NewKeysMembers(t, present + [k0], keys[1..]);
      }
    }
  }

  /** Appending a key not yet present keeps the keys distinct. */
  lemma DistinctSnoc(ks: seq<Key>, k: Key)
    requires Distinct(ks) && k !in ks
    ensures Distinct(ks + [k])
  {
    var ks' := ks + [k];
    forall i, j | 0 <= i < j < |ks'| ensures ks'[i] != ks'[j] {
      if j == |ks| {
        assert ks'[i] == ks[i] && ks[i] in ks;
      }
    }
  }

  /** No key is appended twice, nor a key already present. */
  lemma {:induction false} NewKeysDistinct(t: Value, present: seq<Key>, keys: seq<Key>)
    requires Distinct(present)
    ensures Distinct(present + NewKeys(t, present, keys))
    decreases |keys|
  {
    if keys == [] {
      assert present + [] == present;
    } else {
      var k0 := keys[0];
      if PropertyIsUnsafe(t, k0) || k0 in present {
        NewKeysDistinct(t, present, keys[1..]);
      } else {
        var present' := present + [k0];
        DistinctSnoc(present, k0);
        NewKeysDistinct(t, present', keys[1..]);
        assert present + NewKeys(t, present, keys) == present' + NewKeys(t, present', keys[1..]);
      }
    }
  }

  /** The keys present after one turn of the key loop: a safe key not yet present is appended. */
  function KeysAfter(t: Value, present: seq<Key>, k: Key): seq<Key> {
    if PropertyIsUnsafe(t, k) || k in present then present else present + [k]
  }

  lemma NewKeysUnfold(t: Value, present: seq<Key>, keys: seq<Key>)
    requires keys != []
    ensures present + NewKeys(t, present, keys)
         == KeysAfter(t, present, keys[0]) + NewKeys(t, KeysAfter(t, present, keys[0]), keys[1..])
  {
    var k0 := keys[0];
    if !(PropertyIsUnsafe(t, k0) || k0 in present) {
      var rest := NewKeys(t, present + [k0], keys[1..]);
      assert NewKeys(t, present, keys) == [k0] + rest;
      assert present + ([k0] + rest) == present + [k0] + rest;
    }
  }

  lemma OverlayStepKeys(t: Value, dest: Value, k: Key, x: Value)
    requires dest.Obj?
    ensures var dest' := if PropertyIsUnsafe(t, k) then dest else SetKey(dest, k, x);
      dest'.Obj? && KeysOf(dest'.own) == KeysAfter(t, KeysOf(dest.own), k)
  {
    if !PropertyIsUnsafe(t, k) {
      KeysOfSetProp(dest.own, k, x);
    }
  }

  /** The key loop appends the new safe keys in enumeration order. */
  lemma {:induction false} OverlayKeyOrder(cfg: Config, t: Value, s: Value, p: Path, dest: Value, keys: seq<Key>)
    requires dest.Obj?
    ensures var r := Overlay(cfg, t, s, p, dest, keys);
      r.Obj? && KeysOf(r.own) == KeysOf(dest.own) + NewKeys(t, KeysOf(dest.own), keys)
    decreases |keys|
  {
    if keys == [] {
      assert KeysOf(dest.own) + [] == KeysOf(dest.own);
    } else {
      var k0 := keys[0];
      var x := Entry(cfg, t, s, p, k0);
      var dest' := if PropertyIsUnsafe(t, k0) then dest else SetKey(dest, k0, x);
      assert Overlay(cfg, t, s, p, dest, keys) == Overlay(cfg, t, s, p, dest', keys[1..]);
      OverlayKeyOrder(cfg, t, s, p, dest', keys[1..]);
      OverlayStepKeys(t, dest, k0, x);
      NewKeysUnfold(t, KeysOf(dest.own), keys);
    }
  }

  lemma {:induction false} OverlayKeys(cfg: Config, t: Value, s: Value, p: Path, dest: Value, keys: seq<Key>)
    requires dest.Obj?
    ensures var r := Overlay(cfg, t, s, p, dest, keys);
      && r.Obj? && |dest.own| <= |r.own| && r.hidden == dest.hidden
      && (forall i :: 0 <= i < |dest.own| ==> r.own[i].key == dest.own[i].key)
      && (forall k :: k in KeysOf(r.own) <==> k in KeysOf(dest.own) || (k in keys && !PropertyIsUnsafe(t, k)))
      && KeysOf(r.own) == KeysOf(dest.own) + NewKeys(t, KeysOf(dest.own), keys)
    decreases |keys|
  {
    OverlayKeyOrder(cfg, t, s, p, dest, keys);
    if keys != [] {
      var k0 := keys[0];
      var dest' := if PropertyIsUnsafe(t, k0) then dest else SetKey(dest, k0, Entry(cfg, t, s, p, k0));
      assert Overlay(cfg, t, s, p, dest, keys) == Overlay(cfg, t, s, p, dest', keys[1..]);
      OverlayKeys(cfg, t, s, p, dest', keys[1..]);
      if !PropertyIsUnsafe(t, k0) {
        KeysOfSetProp(dest.own, k0, Entry(cfg, t, s, p, k0));
      }
      assert forall k :: k in keys <==> k == k0 || k in keys[1..];
    }
  }

  /**
   * The object strategy keeps every key of the (cloned) target at its
   * position, and its keys are exactly those plus the safe source keys,
   * the new ones appended in the source's enumeration order.
   */
  lemma ObjectMergeKeys(cfg: Config, t: Value, s: Value, p: Path)
    requires t.Obj? && cfg.isMergeable(t)
    ensures var dest := CloneUnlessOtherwiseSpecified(cfg, t); var r := ObjectMerge(cfg, t, s, p);
      && r.Obj? && |dest.own| <= |r.own|
      && (forall i :: 0 <= i < |dest.own| ==> r.own[i].key == dest.own[i].key)
      && (forall k :: k in KeysOf(r.own) <==>
            k in KeysOf(dest.own) || (k in GetKeys(cfg, s) && !PropertyIsUnsafe(t, k)))
      && KeysOf(r.own) == KeysOf(dest.own) + NewKeys(t, KeysOf(dest.own), GetKeys(cfg, s))
  {
    OverlayKeys(cfg, t, s, p, CloneUnlessOtherwiseSpecified(cfg, t), GetKeys(cfg, s));
  }

  /**
   * The prototype-pollution guard: a key that is reachable on the target but
   * is not one of its own enumerable properties (inherited, or own but
   * non-enumerable) never becomes an own property of the result.
   */
  lemma UnsafeKeyNeverAssigned(cfg: Config, t: Value, s: Value, p: Path, k: Key)
    requires t.Obj? && cfg.isMergeable(t)
    requires PropertyIsUnsafe(t, k)
    ensures var r := ObjectMerge(cfg, t, s, p); r.Obj? && k !in KeysOf(r.own)
  {
    ObjectMergeKeys(cfg, t, s, p);
    if cfg.clone {
      ClonePropsKeysWithin(cfg, t, GetKeys(cfg, t), []);
    }
  }

  /** Merging in an empty object gives back the (cloned) target. */
  lemma MergeEmptySource(cfg: Config, t: Value, h: set<Key>, p: Path)
    requires t.Obj? && cfg.isMergeable(t) && cfg.isMergeable(Obj([], h))
    ensures Merge(cfg, t, Obj([], h), p) == CloneUnlessOtherwiseSpecified(cfg, t)
  {
    var s := Obj([], h);
    assert GetKeys(cfg, s) == [];
    assert ObjectMerge(cfg, t, s, p) == Overlay(cfg, t, s, p, CloneUnlessOtherwiseSpecified(cfg, t), []);
  }

  lemma {:induction false} OverlayOntoEmpty(cfg: Config, t: Value, s: Value, p: Path, keys: seq<Key>, acc: seq<Prop<Value>>)
    requires cfg.clone && t.Obj? && t.own == [] && KeysAreOwn(s, keys)
    requires forall k :: k in keys ==> k !in t.hidden
    ensures Overlay(cfg, t, s, p, Obj(acc, ObjectPrototypeKeys), keys)
      == Obj(CloneProps(cfg, s, keys, acc), ObjectPrototypeKeys)
    decreases |keys|
  {
    if keys != [] {
      var k0 := keys[0];
      var i := IndexOf(s.own, k0).value;
      var x := DeepClone(cfg, s.own[i].val);
      assert !PropertyIsUnsafe(t, k0) && !PropertyIsOnObject(t, k0);
      assert Entry(cfg, t, s, p, k0) == x;
      OverlayOntoEmpty(cfg, t, s, p, keys[1..], SetProp(acc, k0, x));
    }
  }

  /**
   * Merging into an empty target with cloning on yields exactly the clone of
   * the source, provided no source key is inherited by the target.
   */
  lemma MergeIntoEmptyTarget(cfg: Config, h: set<Key>, s: Value, p: Path)
    requires cfg.clone && s.Obj? && cfg.isMergeable(s) && cfg.isMergeable(Obj([], h))
    requires forall k :: k in GetKeys(cfg, s) ==> k !in h
    ensures Merge(cfg, Obj([], h), s, p) == DeepClone(cfg, s)
  {
    var t := Obj([], h);
    assert GetKeys(cfg, t) == [];
    assert CloneProps(cfg, t, [], []) == [];
    assert CloneUnlessOtherwiseSpecified(cfg, t) == Obj([], ObjectPrototypeKeys);
    OverlayOntoEmpty(cfg, t, s, p, GetKeys(cfg, s), []);
  }

  // ---------------------------------------------------------------------
  // The custom-merge hook
  // ---------------------------------------------------------------------

  /**
   * When two configurations supply the same function for a path, merging
   * there gives the same result whatever their classifiers, cloning flags,
   * symbol settings and answers for the paths below.
   */
  lemma CustomMergeTakesOver(c1: Config, c2: Config, t: Value, s: Value, p: Path)
    requires CustomMergeAt(c1, p).Some? && CustomMergeAt(c2, p) == CustomMergeAt(c1, p)
    ensures MergeUnlessCustomSpecified(c1, t, s, p) == MergeUnlessCustomSpecified(c2, t, s, p)
  {
  }

  /**
   * A key merged recursively by the default object strategy goes through the
   * function the hook supplies for `p + [k]`, which receives the target's
   * value first, then the source's value, then that path.
   */
  lemma HookedKeyMerged(cfg: Config, t: Value, s: Value, p: Path, k: Key, f: CustomMerge)
    requires t.Obj? && cfg.isMergeable(t)
    requires k in GetKeys(cfg, s) && !PropertyIsUnsafe(t, k) && PropertyIsOnObject(t, k)
    requires cfg.isMergeable(Read(s, k))
    requires CustomMergeAt(cfg, p + [k]) == Some(f)
    ensures Read(ObjectMerge(cfg, t, s, p), k) == f(Read(t, k), Read(s, k), p + [k])
  {
    ObjectMergeRead(cfg, t, s, p, k);
  }

  /**
   * Options left out behave as if their defaults were given: cloning and
   * symbol keys on, the classifier `isMergeableObject`.
   */
  lemma DefaultsMayBeSpelledOut(t: Value, s: Value, o: Options)
    ensures o.clone.None? ==> DeepMerge(t, s, o.(clone := Some(true))) == DeepMerge(t, s, o)
    ensures o.includeSymbol.None? ==> DeepMerge(t, s, o.(includeSymbol := Some(true))) == DeepMerge(t, s, o)
    ensures o.isMergeableObject.None? ==>
      DeepMerge(t, s, o.(isMergeableObject := Some(IsMergeableObject))) == DeepMerge(t, s, o)
    ensures DeepMerge(t, s, Options(Some(IsMergeableObject), None, Some(true), Some(true)))
         == DeepMerge(t, s, NoOptions)
  {
  }
}

=== FILE: merge_invariants.dfy ===
/**
 * Whole-merge properties proved by induction over the source: merging keeps
 * the object invariant, and the result depends on the custom-merge hook only
 * at the paths below the starting point.
 */
module MergeInvariants {
  import opened Wrappers
  import opened Values
  import opened Engine
  import opened CloneFacts

  // ---------------------------------------------------------------------
  // The object invariant
  // ---------------------------------------------------------------------

  /** Every function the hook can supply returns well-formed values. */
  ghost predicate CustomResultsWellFormed(cfg: Config) {
    forall q: Path, a: Value, b: Value :: CustomMergeAt(cfg, q).Some? ==>
      WellFormed(CustomMergeAt(cfg, q).value(a, b, q))
  }

  lemma ReadWellFormed(v: Value, k: Key)
    requires WellFormed(v)
    ensures WellFormed(Read(v, k))
  {
  }

  lemma SetKeyWellFormed(o: Value, k: Key, x: Value)
    requires WellFormed(o) && WellFormed(x)
    ensures WellFormed(SetKey(o, k, x))
  {
    if o.Obj? {
      SetPropKeepsDistinct(o.own, k, x);
      var r := SetProp(o.own, k, x);
      assert forall i :: 0 <= i < |r| ==> r[i] == Prop(k, x) || r[i] == o.own[i];
    }
  }

  lemma CloneUnlessWellFormed(cfg: Config, v: Value)
    requires WellFormed(v)
    ensures WellFormed(CloneUnlessOtherwiseSpecified(cfg, v))
  {
    if cfg.clone {
      DeepCloneWellFormed(cfg, v);
    }
  }

  lemma {:induction false} MergeUnlessCustomSpecifiedWellFormed(cfg: Config, t: Value, s: Value, p: Path)
    requires WellFormed(t) && WellFormed(s) && CustomResultsWellFormed(cfg)
    ensures WellFormed(MergeUnlessCustomSpecified(cfg, t, s, p))
    decreases s, 5
  {
    if CustomMergeAt(cfg, p).None? {
      MergeWellFormed(cfg, t, s, p);
    }
  }

  /** A merge of well-formed values is well formed: no object of the result has a repeated key. */
  lemma {:induction false} MergeWellFormed(cfg: Config, t: Value, s: Value, p: Path)
    requires WellFormed(t) && WellFormed(s) && CustomResultsWellFormed(cfg)
    ensures WellFormed(Merge(cfg, t, s, p))
    decreases s, 4
  {
    if s.Arr? {
      if t.Arr? {
        var r := ArrayMerge(cfg, t, s, p);
        forall i | 0 <= i < |r.elems| ensures WellFormed(r.elems[i]) {
          if i < |t.elems| {
            CloneUnlessWellFormed(cfg, t.elems[i]);
          } else {
            CloneUnlessWellFormed(cfg, s.elems[i - |t.elems|]);
          }
        }
      } else {
        CloneUnlessWellFormed(cfg, s);
      }
    } else if cfg.isMergeable(s) {
      if !t.Arr? && cfg.isMergeable(t) {
        CloneUnlessWellFormed(cfg, t);
        OverlayWellFormed(cfg, t, s, p, CloneUnlessOtherwiseSpecified(cfg, t), GetKeys(cfg, s));
      } else {
        CloneUnlessWellFormed(cfg, s);
      }
    }
  }

  lemma {:induction false} OverlayWellFormed(cfg: Config, t: Value, s: Value, p: Path, dest: Value, keys: seq<Key>)
    requires WellFormed(t) && WellFormed(s) && WellFormed(dest) && CustomResultsWellFormed(cfg)
    ensures WellFormed(Overlay(cfg, t, s, p, dest, keys))
    decreases s, 2, |keys|
  {
    if keys != [] {
      var k := keys[0];
      var dest' := if PropertyIsUnsafe(t, k) then dest else SetKey(dest, k, Entry(cfg, t, s, p, k));
      if !PropertyIsUnsafe(t, k) {
        EntryWellFormed(cfg, t, s, p, k);
        SetKeyWellFormed(dest, k, Entry(cfg, t, s, p, k));
      }
      OverlayWellFormed(cfg, t, s, p, dest', keys[1..]);
    }
  }

  lemma {:induction false} EntryWellFormed(cfg: Config, t: Value, s: Value, p: Path, k: Key)
    requires WellFormed(t) && WellFormed(s) && CustomResultsWellFormed(cfg)
    ensures WellFormed(Entry(cfg, t, s, p, k))
    decreases s, 1
  {
    CloneUnlessWellFormed(cfg, Undefined);
    if s.Obj? && IndexOf(s.own, k).Some? {
      var sv := s.own[IndexOf(s.own, k).value].val;
      if PropertyIsOnObject(t, k) && cfg.isMergeable(sv) {
        ReadWellFormed(t, k);
        MergeUnlessCustomSpecifiedWellFormed(cfg, Read(t, k), sv, p + [k]);
      } else {
        CloneUnlessWellFormed(cfg, sv);
      }
    }
  }

  // ---------------------------------------------------------------------
  // Dependence on the custom-merge hook
  // ---------------------------------------------------------------------

  /** The two configurations classify, clone and enumerate alike. */
  ghost predicate SameShape(c1: Config, c2: Config) {
    && c1.isMergeable == c2.isMergeable
    && c1.clone == c2.clone
    && c1.includeSymbol == c2.includeSymbol
  }

  /** The two configurations agree everywhere, except possibly on the hook at `p` and above it. */
  ghost predicate AgreeBelow(c1: Config, c2: Config, p: Path) {
    && SameShape(c1, c2)
    && forall q: Path :: |p| < |q| && q[..|p|] == p ==> CustomMergeAt(c1, q) == CustomMergeAt(c2, q)
  }

  lemma {:induction false} DeepCloneCongruent(c1: Config, c2: Config, v: Value)
    requires SameShape(c1, c2)
    ensures DeepClone(c1, v) == DeepClone(c2, v)
    decreases v, 1
  {
    if v.Arr? {
      forall i | 0 <= i < |v.elems| ensures DeepClone(c1, v.elems[i]) == DeepClone(c2, v.elems[i]) {
        DeepCloneCongruent(c1, c2, v.elems[i]);
      }
      assert DeepClone(c1, v).elems == DeepClone(c2, v).elems;
    } else if c1.isMergeable(v) {
      ClonePropsCongruent(c1, c2, v, GetKeys(c1, v), []);
    }
  }

  lemma {:induction false} ClonePropsCongruent(c1: Config, c2: Config, v: Value, keys: seq<Key>, acc: seq<Prop<Value>>)
    requires SameShape(c1, c2)
    ensures CloneProps(c1, v, keys, acc) == CloneProps(c2, v, keys, acc)
    decreases v, 0, |keys|
  {
    if keys != [] && v.Obj? {
      match IndexOf(v.own, keys[0])
      case Some(i) =>
        DeepCloneCongruent(c1, c2, v.own[i].val);
        ClonePropsCongruent(c1, c2, v, keys[1..], SetProp(acc, keys[0], DeepClone(c1, v.own[i].val)));
      case None =>
        ClonePropsCongruent(c1, c2, v, keys[1..], SetProp(acc, keys[0], Undefined));
    } else if keys != [] {
      ClonePropsCongruent(c1, c2, v, keys[1..], SetProp(acc, keys[0], Undefined));
    }
  }

  lemma CloneUnlessCongruent(c1: Config, c2: Config, v: Value)
    requires SameShape(c1, c2)
    ensures CloneUnlessOtherwiseSpecified(c1, v) == CloneUnlessOtherwiseSpecified(c2, v)
  {
    DeepCloneCongruent(c1, c2, v);
  }

  lemma AgreeBelowStep(c1: Config, c2: Config, p: Path, k: Key)
    requires AgreeBelow(c1, c2, p)
    ensures AgreeBelow(c1, c2, p + [k])
    ensures CustomMergeAt(c1, p + [k]) == CustomMergeAt(c2, p + [k])
  {
    var p' := p + [k];
    assert p'[..|p|] == p;
    forall q: Path | |p'| < |q| && q[..|p'|] == p'
      ensures CustomMergeAt(c1, q) == CustomMergeAt(c2, q)
    {
      assert q[..|p|] == q[..|p'|][..|p|];
    }
  }

  lemma {:induction false} MergeUnlessCustomSpecifiedCongruent(c1: Config, c2: Config, t: Value, s: Value, p: Path)
    requires AgreeBelow(c1, c2, p) && CustomMergeAt(c1, p) == CustomMergeAt(c2, p)
    ensures MergeUnlessCustomSpecified(c1, t, s, p) == MergeUnlessCustomSpecified(c2, t, s, p)
    decreases s, 5
  {
    if CustomMergeAt(c1, p).None? {
      MergeCongruent(c1, c2, t, s, p);
    }
  }

  lemma ArrayMergeCongruent(c1: Config, c2: Config, t: Value, s: Value, p: Path)
    requires SameShape(c1, c2) && t.Arr? && s.Arr?
    ensures ArrayMerge(c1, t, s, p) == ArrayMerge(c2, t, s, p)
  {
    forall i | 0 <= i < |t.elems| ensures
      CloneUnlessOtherwiseSpecified(c1, t.elems[i]) == CloneUnlessOtherwiseSpecified(c2, t.elems[i])
    {
      CloneUnlessCongruent(c1, c2, t.elems[i]);
    }
    forall i | 0 <= i < |s.elems| ensures
      CloneUnlessOtherwiseSpecified(c1, s.elems[i]) == CloneUnlessOtherwiseSpecified(c2, s.elems[i])
    {
      CloneUnlessCongruent(c1, c2, s.elems[i]);
    }
    assert ArrayMerge(c1, t, s, p).elems == ArrayMerge(c2, t, s, p).elems;
  }

  /** The result of merge at `p` only depends on what the hook says strictly below `p`. */
  lemma {:induction false} MergeCongruent(c1: Config, c2: Config, t: Value, s: Value, p: Path)
    requires AgreeBelow(c1, c2, p)
    ensures Merge(c1, t, s, p) == Merge(c2, t, s, p)
    decreases s, 4
  {
    if s.Arr? {
      if t.Arr? {
        ArrayMergeCongruent(c1, c2, t, s, p);
      } else {
        CloneUnlessCongruent(c1, c2, s);
      }
    } else if c1.isMergeable(s) {
      if !t.Arr? && c1.isMergeable(t) {
        CloneUnlessCongruent(c1, c2, t);
        OverlayCongruent(c1, c2, t, s, p, CloneUnlessOtherwiseSpecified(c1, t), GetKeys(c1, s));
      } else {
        CloneUnlessCongruent(c1, c2, s);
      }
    }
  }

  lemma {:induction false} OverlayCongruent(c1: Config, c2: Config, t: Value, s: Value, p: Path, dest: Value, keys: seq<Key>)
    requires AgreeBelow(c1, c2, p)
    ensures Overlay(c1, t, s, p, dest, keys) == Overlay(c2, t, s, p, dest, keys)
    decreases s, 2, |keys|
  {
    if keys != [] {
      var k := keys[0];
      EntryCongruent(c1, c2, t, s, p, k);
      var dest' := if PropertyIsUnsafe(t, k) then dest else SetKey(dest, k, Entry(c1, t, s, p, k));
      OverlayCongruent(c1, c2, t, s, p, dest', keys[1..]);
    }
  }

  lemma {:induction false} EntryCongruent(c1: Config, c2: Config, t: Value, s: Value, p: Path, k: Key)
    requires AgreeBelow(c1, c2, p)
    ensures Entry(c1, t, s, p, k) == Entry(c2, t, s, p, k)
    decreases s, 1
  {
    if s.Obj? && IndexOf(s.own, k).Some? {
      var sv := s.own[IndexOf(s.own, k).value].val;
      if PropertyIsOnObject(t, k) && c1.isMergeable(sv) {
        assert MergeUnlessCustomSpecified(c1, Read(t, k), sv, p + [k])
            == MergeUnlessCustomSpecified(c2, Read(t, k), sv, p + [k]) by {
          AgreeBelowStep(c1, c2, p, k);
          MergeUnlessCustomSpecifiedCongruent(c1, c2, Read(t, k), sv, p + [k]);
        }
      } else {
        CloneUnlessCongruent(c1, c2, sv);
      }
    } else {
      CloneUnlessCongruent(c1, c2, Undefined);
    }
  }

  /**
   * A hook that never returns a function behaves exactly like no hook at
   * all, at every depth.
   */
  lemma HookWithoutFunctionsIsNoHook(base: Config, lookup: Path -> Option<CustomMerge>, t: Value, s: Value, p: Path)
    requires forall q :: lookup(q) == None
    ensures Merge(base.(customMerge := Some(lookup)), t, s, p)
         == Merge(base.(customMerge := None), t, s, p)
  {
    var c1 := base.(customMerge := Some(lookup));
    var c2 := base.(customMerge := None);
    assert forall q: Path :: CustomMergeAt(c1, q) == None;
    MergeCongruent(c1, c2, t, s, p);
  }

  /** The options with the hook's answer for the empty path replaced by `f`. */
  function WithRootAnswer(o: Options, f: CustomMerge): (o': Options)
    ensures o'.isMergeableObject == o.isMergeableObject
    ensures o'.clone == o.clone && o'.includeSymbol == o.includeSymbol
    ensures o'.customMerge.Some? && o'.customMerge.value([]) == Some(f)
    ensures forall q: Path :: q != [] ==>
      o'.customMerge.value(q) == (if o.customMerge.Some? then o.customMerge.value(q) else None)
  {
    var lookup := (q: Path) =>
      if q == [] then Some(f)
      else match o.customMerge
        case Some(l) => l(q)
        case None => None;
    o.(customMerge := Some(lookup))
  }

  /**
   * The top-level call goes straight to merge: whatever the hook answers for
   * the empty path is never used.
   */
  lemma RootIsNeverCustomMerged(t: Value, s: Value, o: Options, f: CustomMerge)
    ensures DeepMerge(t, s, WithRootAnswer(o, f)) == DeepMerge(t, s, o)
  {
    var c1 := FromOptions(WithRootAnswer(o, f));
    var c2 := FromOptions(o);
    forall q: Path | 0 < |q| ensures CustomMergeAt(c1, q) == CustomMergeAt(c2, q) {
    }
    MergeCongruent(c1, c2, t, s, []);
  }
}

=== FILE: values.dfy ===
/**
 * JavaScript values as seen by the deep-merge engine, and the operations on
 * an object's own enumerable properties that the engine performs:
 * enumerating keys, reading `obj[key]` and assigning `obj[key] = v`.
 */
module Values {
  import opened Wrappers

  /** A property key: a string key or a symbol (identified by a number). */
  datatype Key = Str(name: string) | Sym(id: nat)

  /** The keys leading from the merge root to the current recursion point. */
  type Path = seq<Key>

  /** Built-in objects the default classifier treats as atomic. */
  datatype OpaqueKind = Date | RegExp

  datatype Primitive = Bool(b: bool) | Num(n: int) | Text(s: string)

  /** One own enumerable property. */
  datatype Prop<V> = Prop(key: Key, val: V)

  /**
   * A JavaScript value. `Opaque` carries an identity so that "the very same
   * Date/RegExp" can be stated. For `Obj`, `own` lists the own enumerable
   * properties in insertion order and `hidden` the keys that are reachable on
   * the object (`key in obj`) without being own enumerable ones: inherited
   * members and own non-enumerable properties.
   */
  datatype Value =
    | Undefined
    | Null
    | Prim(p: Primitive)
    | Opaque(kind: OpaqueKind, id: nat)
    | Arr(elems: seq<Value>)
    | Obj(own: seq<Prop<Value>>, hidden: set<Key>)

  /** Members a fresh `{}` inherits from `Object.prototype`. */
  const ObjectPrototypeKeys: set<Key> := {
    Str("constructor"), Str("__proto__"), Str("__defineGetter__"), Str("__defineSetter__"),
    Str("__lookupGetter__"), Str("__lookupSetter__"), Str("hasOwnProperty"),
    Str("isPrototypeOf"), Str("propertyIsEnumerable"), Str("toLocaleString"),
    Str("toString"), Str("valueOf")
  }

  predicate Distinct(ks: seq<Key>) {
    forall i, j :: 0 <= i < j < |ks| ==> ks[i] != ks[j]
  }

  function KeysOf<V>(own: seq<Prop<V>>): (ks: seq<Key>)
    ensures |ks| == |own|
    ensures forall i :: 0 <= i < |own| ==> ks[i] == own[i].key
  {
    seq(|own|, i requires 0 <= i < |own| => own[i].key)
  }

  /** The keys of `ks` that are strings (`str`) or symbols (`!str`), in order. */
  function OfKind(ks: seq<Key>, str: bool): seq<Key> {
    if ks == [] then []
    else if ks[0].Str? == str then [ks[0]] + OfKind(ks[1..], str)
    else OfKind(ks[1..], str)
  }

  /** Filtering keeps exactly the keys of the requested kind. */
  lemma {:induction false} OfKindMembers(ks: seq<Key>, str: bool)
    ensures forall k :: k in OfKind(ks, str) <==> k in ks && k.Str? == str
  {
    if ks != [] {
      OfKindMembers(ks[1..], str);
      assert forall k :: k in ks <==> k == ks[0] || k in ks[1..];
    }
  }

  /** Filtering never introduces a repeated key. */
  lemma {:induction false} OfKindDistinct(ks: seq<Key>, str: bool)
    requires Distinct(ks)
    ensures Distinct(OfKind(ks, str))
  {
    if ks != [] {
      var tail := ks[1..];
      DistinctTail(ks);
      OfKindDistinct(tail, str);
      if ks[0].Str? == str {
        OfKindMembers(tail, str);
        var rest := OfKind(tail, str);
        var r := [ks[0]] + rest;
        forall i, j | 0 <= i < j < |r| ensures r[i] != r[j] {
          if i == 0 {
            assert r[j] == rest[j - 1];
            assert rest[j - 1] in rest;
          } else {
            assert r[i] == rest[i - 1] && r[j] == rest[j - 1];
          }
        }
      }
    }
  }

  /**
   * Keys of the same kind (string or symbol) occur in `r` in the order in
   * which they were inserted into `ks`.
   */
  predicate OrderedWithinKind(r: seq<Key>, ks: seq<Key>) {
    forall i, j :: 0 <= i < j < |r| && r[i].Str? == r[j].Str? ==>
      r[i] in ks && r[j] in ks && IndexOfKey(ks, r[i]).value < IndexOfKey(ks, r[j]).value
  }

  /** Past the first key, positions in `ks` are positions in its tail shifted by one. */
  lemma IndexOfKeyTail(ks: seq<Key>, k: Key)
    requires ks != [] && k in ks[1..] && k != ks[0]
    ensures IndexOfKey(ks, k) == Some(IndexOfKey(ks[1..], k).value + 1)
  {
  }

  /** Keys ordered within the tail of `ks` stay ordered within `ks`. */
  lemma OrderedShift(ks: seq<Key>, rest: seq<Key>)
    requires ks != [] && ks[0] !in ks[1..]
    requires forall k :: k in rest ==> k in ks[1..]
    requires OrderedWithinKind(rest, ks[1..])
    ensures OrderedWithinKind(rest, ks)
  {
    forall i, j | 0 <= i < j < |rest| && rest[i].Str? == rest[j].Str?
      ensures rest[i] in ks && rest[j] in ks && IndexOfKey(ks, rest[i]).value < IndexOfKey(ks, rest[j]).value
    {
      assert rest[i] in rest && rest[j] in rest;
      IndexOfKeyTail(ks, rest[i]);
      IndexOfKeyTail(ks, rest[j]);
    }
  }

  /** Putting the first key of `ks` in front of keys ordered within its tail keeps them ordered. */
  lemma OrderedCons(ks: seq<Key>, rest: seq<Key>)
    requires ks != [] && ks[0] !in ks[1..]
    requires forall k :: k in rest ==> k in ks[1..]
    requires OrderedWithinKind(rest, ks[1..])
    ensures OrderedWithinKind([ks[0]] + rest, ks)
  {
    OrderedShift(ks, rest);
    var r := [ks[0]] + rest;
    forall i, j | 0 <= i < j < |r| && r[i].Str? == r[j].Str?
      ensures r[i] in ks && r[j] in ks && IndexOfKey(ks, r[i]).value < IndexOfKey(ks, r[j]).value
    {
      assert r[j] == rest[j - 1] && rest[j - 1] in rest;
      if i == 0 {
        IndexOfKeyTail(ks, rest[j - 1]);
      } else {
        assert r[i] == rest[i - 1];
      }
    }
  }

  /** Filtering keeps the keys in the order they were inserted. */
  lemma {:induction false} OfKindOrder(ks: seq<Key>, str: bool)
    requires Distinct(ks)
    ensures OrderedWithinKind(OfKind(ks, str), ks)
  {
    if ks != [] {
      var tail := ks[1..];
      DistinctTail(ks);
      OfKindOrder(tail, str);
      OfKindMembers(tail, str);
      if ks[0].Str? == str {
        OrderedCons(ks, OfKind(tail, str));
      } else {
        OrderedShift(ks, OfKind(tail, str));
      }
    }
  }

  /** `Object.keys`: the own enumerable string keys, in insertion order. */
  function StringKeys<V>(own: seq<Prop<V>>): seq<Key> {
    OfKind(KeysOf(own), true)
  }

  /** The own enumerable symbol keys, in insertion order. */
  function SymbolKeys<V>(own: seq<Prop<V>>): seq<Key> {
    OfKind(KeysOf(own), false)
  }

  /** String keys first, then (when asked for) symbol keys. */
  function EnumerableKeys<V>(own: seq<Prop<V>>, includeSymbol: bool): (r: seq<Key>)
    ensures forall k :: k in r <==> k in KeysOf(own) && (k.Str? || includeSymbol)
    ensures forall i, j :: 0 <= i < j < |r| && r[i].Sym? ==> r[j].Sym?
    ensures Distinct(KeysOf(own)) ==> Distinct(r)
  {
    EnumerableKeysFacts(own, includeSymbol);
    StringKeys(own) + (if includeSymbol then SymbolKeys(own) else [])
  }

  /** Strings followed by symbols: every symbol comes last, and no key repeats when neither part repeats one. */
  lemma KindsAppend(strs: seq<Key>, syms: seq<Key>)
    requires forall i :: 0 <= i < |strs| ==> strs[i].Str?
    requires forall i :: 0 <= i < |syms| ==> syms[i].Sym?
    ensures var r := strs + syms; forall i, j :: 0 <= i < j < |r| && r[i].Sym? ==> r[j].Sym?
    ensures Distinct(strs) && Distinct(syms) ==> Distinct(strs + syms)
  {
    var r := strs + syms;
    assert forall i :: 0 <= i < |r| ==> r[i] == if i < |strs| then strs[i] else syms[i - |strs|];
    if Distinct(strs) && Distinct(syms) {
      forall i, j | 0 <= i < j < |r| ensures r[i] != r[j] {
        if i < |strs| <= j {
          assert r[i].Str? && r[j].Sym?;
        }
      }
    }
  }

  lemma EnumerableKeysFacts<V>(own: seq<Prop<V>>, includeSymbol: bool)
    ensures var strs := StringKeys(own);
      var syms := if includeSymbol then SymbolKeys(own) else [];
      var r := strs + syms;
      && (forall k :: k in r <==> k in KeysOf(own) && (k.Str? || includeSymbol))
      && (forall i, j :: 0 <= i < j < |r| && r[i].Sym? ==> r[j].Sym?)
      && (Distinct(KeysOf(own)) ==> Distinct(r))
  {
    var ks := KeysOf(own);
    var strs := StringKeys(own);
    var syms := if includeSymbol then SymbolKeys(own) else [];
    OfKindMembers(ks, true);
    OfKindMembers(ks, false);
    assert forall i :: 0 <= i < |strs| ==> strs[i] in strs;
    assert forall i :: 0 <= i < |syms| ==> syms[i] in syms;
    KindsAppend(strs, syms);
    if Distinct(ks) {
      OfKindDistinct(ks, true);
      OfKindDistinct(ks, false);
    }
  }

  /** Enumeration keeps the keys of each kind in insertion order. */
  lemma EnumerableKeysOrdered<V>(own: seq<Prop<V>>, includeSymbol: bool)
    requires Distinct(KeysOf(own))
    ensures OrderedWithinKind(EnumerableKeys(own, includeSymbol), KeysOf(own))
  {
    EnumerationOrdered(KeysOf(own), StringKeys(own), if includeSymbol then SymbolKeys(own) else []);
  }

  /** Strings in insertion order followed by symbols in insertion order are ordered within each kind. */
  /** Strings followed by symbols, each ordered, are ordered within kind. */
  lemma OrderedAppend(strs: seq<Key>, syms: seq<Key>, ks: seq<Key>)
    requires OrderedWithinKind(strs, ks) && OrderedWithinKind(syms, ks)
    requires forall i :: 0 <= i < |strs| ==> strs[i].Str?
    requires forall i :: 0 <= i < |syms| ==> syms[i].Sym?
    ensures OrderedWithinKind(strs + syms, ks)
  {
    var r := strs + syms;
    forall i, j | 0 <= i < j < |r| && r[i].Str? == r[j].Str?
      ensures r[i] in ks && r[j] in ks && IndexOfKey(ks, r[i]).value < IndexOfKey(ks, r[j]).value
    {
      if j < |strs| {
        assert r[i] == strs[i] && r[j] == strs[j];
      } else if |strs| <= i {
        assert r[i] == syms[i - |strs|] && r[j] == syms[j - |strs|];
      }
    }
  }

  lemma EnumerationOrdered(ks: seq<Key>, strs: seq<Key>, syms: seq<Key>)
    requires Distinct(ks) && strs == OfKind(ks, true)
    requires syms == [] || syms == OfKind(ks, false)
    ensures OrderedWithinKind(strs + syms, ks)
  {
    OfKindOrder(ks, true);
    OfKindOrder(ks, false);
    OfKindMembers(ks, true);
    OfKindMembers(ks, false);
    assert forall i :: 0 <= i < |strs| ==> strs[i] in strs;
    assert forall i :: 0 <= i < |syms| ==> syms[i] in syms;
    OrderedAppend(strs, syms, ks);
  }

  /** Position of the first occurrence of `k` in `ks`. */
  function IndexOfKey(ks: seq<Key>, k: Key): (r: Option<nat>)
    ensures r.Some? ==> r.value < |ks| && ks[r.value] == k
    ensures r.Some? ==> forall j :: 0 <= j < r.value ==> ks[j] != k
    ensures r.None? <==> k !in ks
  {
    if ks == [] then None
    else if ks[0] == k then Some(0)
    else
      match IndexOfKey(ks[1..], k)
      case None => None
      case Some(i) => Some(i + 1)
  }

  function IndexOf<V>(own: seq<Prop<V>>, k: Key): Option<nat> {
    IndexOfKey(KeysOf(own), k)
  }

  /** `v[k]`: the own enumerable value at `k`, `undefined` when there is none. */
  function Read(v: Value, k: Key): Value {
    if !v.Obj? then Undefined
    else
      match IndexOf(v.own, k)
      case Some(i) => v.own[i].val
      case None => Undefined
  }

  /** `obj[k] = x` on a property list: replaces the existing entry in place, or appends one. */
  function SetProp<V>(own: seq<Prop<V>>, k: Key, x: V): (r: seq<Prop<V>>)
    ensures k in KeysOf(own) ==> |r| == |own|
    ensures k !in KeysOf(own) ==> |r| == |own| + 1 && r[|own|] == Prop(k, x)
    ensures forall i :: 0 <= i < |own| ==> r[i].key == own[i].key
    ensures forall i :: 0 <= i < |own| && own[i].key != k ==> r[i] == own[i]
  {
    match IndexOf(own, k)
    case Some(i) => own[i := Prop(k, x)]
    case None => own + [Prop(k, x)]
  }

  /** `obj[k] = x` on a value; an assignment to a non-object has no effect. */
  function SetKey(o: Value, k: Key, x: Value): (r: Value)
    ensures o.Obj? ==> r.Obj? && r.hidden == o.hidden
    ensures !o.Obj? ==> r == o
  {
    if o.Obj? then Obj(SetProp(o.own, k, x), o.hidden) else o
  }

  /** The representation invariant of JavaScript objects: own keys are unique, at every depth. */
  predicate WellFormed(v: Value) {
    match v
    case Arr(elems) => forall i :: 0 <= i < |elems| ==> WellFormed(elems[i])
    case Obj(own, _) =>
      && Distinct(KeysOf(own))
      && forall i :: 0 <= i < |own| ==> WellFormed(own[i].val)
    case _ => true
  }

  // ---------------------------------------------------------------------
  // Facts about reading and assigning properties.
  // ---------------------------------------------------------------------

  lemma IndexOfKeyUnique(ks: seq<Key>, k: Key, i: nat)
    requires i < |ks| && ks[i] == k
    requires forall j :: 0 <= j < i ==> ks[j] != k
    ensures IndexOfKey(ks, k) == Some(i)
  {
  }

  lemma KeysOfSetProp<V>(own: seq<Prop<V>>, k: Key, x: V)
    ensures k in KeysOf(own) ==> KeysOf(SetProp(own, k, x)) == KeysOf(own)
    ensures k !in KeysOf(own) ==> KeysOf(SetProp(own, k, x)) == KeysOf(own) + [k]
  {
    var r := SetProp(own, k, x);
    if k in KeysOf(own) {
      assert KeysOf(r) == KeysOf(own);
    } else {
      assert KeysOf(r) == KeysOf(own) + [k];
    }
  }

  /** Assigning `k` changes what is read at `k` and nothing else. */
  lemma ReadSetKey(o: Value, k: Key, x: Value, k': Key)
    requires o.Obj?
    ensures Read(SetKey(o, k, x), k') == if k' == k then x else Read(o, k')
  {
    var own := o.own;
    var r := SetProp(own, k, x);
    KeysOfSetProp(own, k, x);
    var ks := KeysOf(own);
    match IndexOf(own, k)
    case Some(i) =>
      assert r == own[i := Prop(k, x)];
    case None =>
      assert KeysOf(r) == ks + [k];
      if k' == k {
        IndexOfKeyUnique(KeysOf(r), k, |own|);
      } else if k' in ks {
        var j := IndexOfKey(ks, k').value;
        IndexOfKeyUnique(KeysOf(r), k', j);
      } else {
        assert k' !in KeysOf(r);
      }
  }

  lemma DistinctTail(ks: seq<Key>)
    requires ks != [] && Distinct(ks)
    ensures Distinct(ks[1..]) && ks[0] !in ks[1..]
  {
    var tail := ks[1..];
    forall i, j | 0 <= i < j < |tail| ensures tail[i] != tail[j] {
      assert tail[i] == ks[i + 1] && tail[j] == ks[j + 1];
    }
    forall i | 0 <= i < |tail| ensures tail[i] != ks[0] {
      assert tail[i] == ks[i + 1];
    }
  }

  lemma SetPropKeepsDistinct<V>(own: seq<Prop<V>>, k: Key, x: V)
    requires Distinct(KeysOf(own))
    ensures Distinct(KeysOf(SetProp(own, k, x)))
  {
    KeysOfSetProp(own, k, x);
  }
}

=== FILE: wrappers.dfy ===
/** The optional-value datatype used throughout the model. */
module Wrappers {

  /** `None` stands for JavaScript's "not supplied" (or any falsy option value). */
  datatype Option<+T> = None | Some(value: T) {

    /** Returns the wrapped value, or `default` when there is none. */
    function GetOr(default: T): (r: T)
      ensures Some? ==> r == value
      ensures None? ==> r == default
    {
      match this
      case Some(v) => v
      case None => default
    }
  }
}
